=== FILE: README.md ===
# SQLBuilder, modelled in Dafny

A model of the fluent SQL statement builder in `builder/builder.go`. The
builder is one record of clause fragments (select list, insert and update
lists, join, where, group-by, having, order-by, limit) and one parameter list
per clause that can carry `?` placeholders. Composer calls rewrite or extend
a fragment and its parameters. Four renderers concatenate the fragments into
a SELECT, INSERT, UPDATE or DELETE statement, or fail with one of three
errors. Four assemblers concatenate the parameter lists in the matching
order.

The model is functional. The builder state is an immutable `State`
datatype, every composer is a pure function from the old state to the new
one, and every renderer returns `Ok(sql)` or `Err(error)`. Go's
`interface{}` bind values are a closed `Value` datatype. Its `List` case is
a whole slice passed as one value, which is what the raw HAVING composers
store.

Files and modules:

- `text.dfy` (`Text`): counting a character, the comma-joining loop the
  list composers share, `Split` as its inverse, and the `?,?,...`
  placeholder list.
- `builder.dfy` (`Builder`): `Value`, `State`, the placeholder discipline
  `Aligned`, and every composer. `Where`/`WhereOr` are one function with an
  `And | Or` argument, and the four `WhereIn` forms are one function with an
  extra `In | NotIn` argument. The same goes for `WhereRaw`, `Having` and
  `HavingRaw`.
- `render.dfy` (`Render`): the errors, the four renderers, the four
  assemblers, and the clause order shared by SELECT text and its parameters.
- `clauses.dfy` (`Clauses`): chains of WHERE, HAVING and JOIN calls, checked
  against a declarative reference expression (seed keyword, then ` AND ` or
  ` OR ` between predicates).
- `findings.dfy` (`Findings`): the places where placeholders and parameters
  stop corresponding, corrected composers, and a script runner over the
  corrected composers.
- `scenarios.dfy` (`Scenarios`): worked examples with their exact rendered
  text and parameters.

Where the code departs from what the builder evidently intends, the model
follows the code:

- `Insert`, `Update` and `Limit` replace their fragment but append to their
  parameter lists. A second call is evidently meant to replace both.
- `HavingRaw` and `HavingRawOr` are not gated on a group-by, while `Having`
  and `HavingOr` are dropped without one.
- `HavingRaw` and `HavingRawOr` forward their variadic values to
  `havingRaw` without spreading them, so each call adds one parameter: the
  whole value list.

Edge behaviour of the code that the model keeps as it is:

- `Insert` with no fields still yields the non-empty fragment `() VALUES ()`.
  `Update` with no fields yields an empty fragment, so `GetUpdateSql` then
  fails.
- `GetUpdateSql` always writes a space after the assignments. `GetDeleteSql`
  always writes a space after the table. Both keep it when there is no where
  fragment.

## Model

| member | source | states |
|---|---|---|
| Text.SplitJoin | builder/builder.go:106-111 | Splitting a comma-joined list of comma-free parts at `,` gives back exactly the parts |
| Text.JoinFacts | builder/builder.go:106-111 | A joined list holds as many `?` as its parts together, none when no part has one, and splits back into its parts |
| Text.PlaceholderListShape | builder/builder.go:343-348 | The `?,?,...` list for k values holds exactly k placeholders, is empty iff k is 0, and splits into k single `?` |
| Builder.NewBuilder | builder/builder.go:34-36 | A fresh builder has all ten fragments and all six parameter lists empty, and satisfies the placeholder discipline |
| Builder.Select | builder/builder.go:103-116 | Only the select list changes, to the comma-joined columns; no columns give the empty list; comma-free columns split back out of it; placeholder-free columns add no `?` |
| Builder.Table | builder/builder.go:118-121 | Only the table changes, to the given name |
| Builder.InsertLayout | builder/builder.go:126-143 | The names and the marks are read back at fixed offsets of `(names) VALUES (marks)`, and its `?` are theirs alone |
| Builder.InsertFragmentPlaceholders | builder/builder.go:123-144 | The insert fragment has one `?` per field, plus any inside the field names |
| Builder.Insert | builder/builder.go:123-151 | Only the insert fragment and parameters change; the fragment is `(names) VALUES (marks)` and never empty; for comma-free fields the names split back into the fields in order and the marks into one `?` per field; the values are appended after earlier ones; discipline is kept on a first call with one value per `?`-free field |
| Builder.Assignments | builder/builder.go:178-185 | One `f = ?` assignment per field, in field order |
| Builder.AssignmentsPlaceholders | builder/builder.go:178-185 | The assignments hold one `?` per field, plus any inside the field names |
| Builder.Update | builder/builder.go:175-194 | Only the update fragment and parameters change; the fragment is the `f = ?` assignments joined by `,` in field order, empty iff there are no fields; for comma-free fields it splits back into the assignments; values are appended; discipline is kept on a first call |
| Builder.ConnectPlaceholders | builder/builder.go:263-274 | The seed or the AND/OR connector adds no `?` of its own to the connected fragment |
| Builder.Comparison | builder/builder.go:276-280 | The `field condition ?` text adds exactly one `?` to those in field and condition |
| Builder.MembershipTest | builder/builder.go:338-349 | The `field IN (...)` text adds exactly one `?` per value |
| Builder.Where | builder/builder.go:247-286 | An empty where fragment is seeded with `WHERE `, otherwise ` AND `/` OR ` joins the comparison; exactly one value is appended; nothing else changes; discipline is kept for `?`-free field and condition |
| Builder.WhereRaw | builder/builder.go:288-308 | The raw text goes in verbatim under the same joining rule; every value is appended in order; discipline is kept when the text has one `?` per value |
| Builder.WhereIn | builder/builder.go:310-358 | The `field IN`/`NOT IN (?,...)` text is joined under the same rule with one `?` per value; all values are appended in order; discipline is kept for a `?`-free field |
| Builder.JoinRaw | builder/builder.go:395-410 | A single space separates the text from earlier join text, and none is written before the first; the values are appended |
| Builder.GroupBy | builder/builder.go:386-393 | The group-by fragment becomes `GROUP BY field`, which is non-empty; nothing else changes |
| Builder.Having | builder/builder.go:441-475 | With no group-by the state is returned unchanged; otherwise like `Where` on the having fragment, with the `HAVING ` seed and one value appended |
| Builder.HavingRaw | builder/builder.go:412-439 | Not gated on the group-by; the text is joined under the HAVING rule; the parameters grow by exactly one entry, the whole value list |
| Builder.OrderByLayout | builder/builder.go:368-381 | The field list can be read back between `ORDER BY ` and the direction, and the fragment's `?` are those of the fields and the direction |
| Builder.OrderBy | builder/builder.go:368-384 | The fragment is `ORDER BY`, the comma-joined fields, one space and one direction token; comma-free fields split back out of it; nothing else changes |
| Builder.LimitPlaceholders | builder/builder.go:362 | The limit text holds exactly two placeholders |
| Builder.Limit | builder/builder.go:360-366 | The fragment is always `LIMIT ? OFFSET ?`; offset then count are appended; discipline is kept only on a first call |
| Render.Section | builder/builder.go:60-88 | An empty fragment contributes nothing; a non-empty one contributes one space and itself |
| Render.QueryHeadPlaceholders | builder/builder.go:50-58 | The `SELECT ... FROM table` head holds only the `?` of the select list and the table |
| Render.GetQuerySql | builder/builder.go:43-91 | Fails exactly when the table is empty, with the table-empty error; otherwise the statement starts with `SELECT <list or *> FROM <table>` |
| Render.GetQueryParams | builder/builder.go:93-101 | The parameters are the join, where, having and limit lists, in that order and in full |
| Render.GetInsertParams | builder/builder.go:171-173 | INSERT binds exactly the insert parameters; under the discipline they match the INSERT's `?` one for one |
| Render.GetInsertSql | builder/builder.go:153-169 | The table is checked before the insert fragment; each error happens exactly under its condition; it succeeds exactly when both are set, with `INSERT INTO t ` and the fragment |
| Render.GetUpdateSql | builder/builder.go:196-217 | The table is checked before the update fragment; each error happens exactly under its condition; it succeeds exactly when both are set, with `UPDATE t SET <upd> ` and the where fragment, with the trailing space kept when there is no where |
| Render.GetUpdateParams | builder/builder.go:219-224 | The update parameters, then the where parameters; under the discipline they match the UPDATE's `?` one for one |
| Render.GetDeleteSql | builder/builder.go:226-241 | Fails exactly when the table is empty; otherwise `DELETE FROM t ` and the where fragment |
| Render.GetDeleteParams | builder/builder.go:243-245 | DELETE binds exactly the where parameters; under the discipline they match the DELETE's `?` one for one |
| Render.QueryLayout | builder/builder.go:43-101 | The SELECT text and its parameters are both read off one clause list in the order join, where, group-by, having, order-by, limit |
| Render.SegmentsAligned | builder/builder.go:60-88 | Clauses each carrying as many `?` as they bind render to text carrying as many `?` as all of them bind |
| Render.QueryCount | builder/builder.go:43-91 | The rendered SELECT holds exactly the `?` of its fragments |
| Render.QueryPlaceholders | builder/builder.go:43-101 | Under the discipline, the SELECT has as many `?` as parameters, and the same holds clause by clause for every prefix of the clause list |
| Clauses.FoldReference | builder/builder.go:263-274 | Connecting predicates one at a time builds the declarative expression: the seed, the first predicate, then ` op text` for each later one |
| Clauses.ApplyConditionStep | builder/builder.go:263-358 | Each WHERE-family call connects its predicate and appends its values, and changes nothing else |
| Clauses.WhereFoldStep | builder/builder.go:263-358 | Connecting one more predicate to the folded where fragment gives the fold of the longer chain |
| Clauses.WhereValuesStep | builder/builder.go:263-358 | Appending one more call's values to the folded parameters gives the values of the longer chain, in call order |
| Clauses.WhereGrows | builder/builder.go:263-358 | After one WHERE-family call the where fragment and its parameters start with the earlier ones |
| Clauses.WhereFold | builder/builder.go:263-358 | A chain of WHERE-family calls connects its predicates in turn and appends all values in call order |
| Clauses.WhereAccumulation | builder/builder.go:247-358 | After any chain of WHERE-family calls only the where clause has changed; it is the reference expression seeded with `WHERE ` (or continued after earlier text), and the values are all appended in order |
| Clauses.WherePlaceholders | builder/builder.go:263-358 | Over balanced calls, the `?` count and the value count of the where clause grow together, and both only grow at the end |
| Clauses.WhereOrder | builder/builder.go:263-358 | The fragment and parameters after the first k calls are prefixes of those after all calls |
| Clauses.WhereSuffix | builder/builder.go:263-358 | Running a chain in two parts is the same as running it whole, and the first part's results are prefixes of the whole |
| Clauses.ApplyHavingStep | builder/builder.go:420-475 | A HAVING-family call that takes effect connects its predicate and appends its parameter; one that does not leaves the state as it was |
| Clauses.HavingFoldStep | builder/builder.go:412-475 | One more HAVING-family call extends the effective calls by itself exactly when it takes effect |
| Clauses.HavingFold | builder/builder.go:412-475 | A chain of HAVING-family calls connects the predicates of the calls that take effect and appends their parameters |
| Clauses.HavingAccumulation | builder/builder.go:412-475 | Only the having clause changes; it is the reference expression over the calls that took effect, seeded with `HAVING `; each raw call adds one packed parameter |
| Clauses.HavingGate | builder/builder.go:449-452 | `Having` leaves the state unchanged if and only if no group-by is set |
| Clauses.GroupByEnablesHaving | builder/builder.go:449-473 | After a `GroupBy`, a `Having` seeds the empty having fragment with `HAVING ` and appends its value |
| Clauses.HavingRawUngated | builder/builder.go:420-439 | Without a group-by, a raw HAVING call still changes the state and appends its packed value list |
| Clauses.DropLeadingEmptyKeeps | builder/builder.go:397-402 | Only the empty join texts at the front are dropped: the rest is kept, in order, as a suffix of the texts |
| Clauses.JoinTextStep | builder/builder.go:399-402 | The space-only-when-non-empty rule extends the space-joined list of texts by one |
| Clauses.JoinRawStep | builder/builder.go:395-410 | One more `JoinRaw` call extends the joined texts by its own text and the parameters by its values |
| Clauses.JoinAccumulation | builder/builder.go:395-410 | After any chain of `JoinRaw` calls only the join clause has changed; it is the non-leading-empty texts separated by single spaces, and every value is appended in order |
| Findings.LimitTwiceOverbinds | builder/builder.go:360-366 | A second `Limit` leaves the SELECT text unchanged but appends two more parameters |
| Findings.LimitTwiceMisaligns | builder/builder.go:360-366 | On a disciplined state with a table and no earlier `Limit`, two `Limit` calls give two more parameters than placeholders |
| Findings.InsertTwiceOverbinds | builder/builder.go:146-148 | After two `Insert` calls the INSERT text is that of the second call alone, but the parameters are the first call's values followed by the second's |
| Findings.InsertTwiceMisaligns | builder/builder.go:123-151 | On a disciplined state with a table and no earlier `Insert`, a second well-formed `Insert` leaves exactly the first call's values as surplus parameters |
| Findings.UpdateTwiceOverbinds | builder/builder.go:189-191 | After two `Update` calls the UPDATE text is that of the second call alone, but the parameters are both calls' values, then the where values |
| Findings.UpdateTwiceMisaligns | builder/builder.go:175-194 | On a disciplined state with a table and no earlier `Update`, a second well-formed `Update` leaves exactly the first call's values as surplus parameters |
| Findings.HavingRawPacksValues | builder/builder.go:412-418 | A raw HAVING call adds its whole value list to the query parameters as one element, after the earlier having parameters and before the limit ones |
| Findings.HavingRawMisaligns | builder/builder.go:412-439 | A raw HAVING text with one `?` per value gives `|values| - 1` more placeholders than parameters |
| Findings.LimitOverwrite | builder/builder.go:360-366 | Corrected `Limit`: fragment and parameters are both replaced, and the discipline is always kept |
| Findings.InsertOverwrite | builder/builder.go:123-151 | Corrected `Insert`: same fragment, parameters replaced by the values, discipline kept for any earlier state |
| Findings.UpdateOverwrite | builder/builder.go:175-194 | Corrected `Update`: same fragment, parameters replaced by the values, discipline kept for any earlier state |
| Findings.HavingRawSpread | builder/builder.go:420-439 | Corrected raw HAVING: same fragment, the values spread one parameter each, discipline kept when the text has one `?` per value |
| Findings.HavingRawGated | builder/builder.go:412-439 | Corrected raw HAVING, gated like `Having`: without a group-by the state is unchanged, otherwise it is the spreading version; discipline kept when the text has one `?` per value |
| Findings.StepAligned | builder/builder.go:103-475 | One well-formed call through the corrected composers keeps the discipline |
| Findings.RunAligned | builder/builder.go:103-475 | Any script of well-formed calls through the corrected composers keeps the discipline |
| Findings.ScriptRendersAligned | builder/builder.go:43-245 | From a fresh builder, any well-formed script renders all four statements with as many placeholders as parameters |
| Scenarios.QueryWithoutJoin | builder/builder.go:43-91 | With every clause but the join set, the clauses are rendered space-separated in fixed order |
| Scenarios.FullQueryState | builder/builder.go:103-475 | The calls of the full query build exactly the expected fragments and parameter lists, and leave the rest empty |
| Scenarios.FullQueryRender | builder/builder.go:43-101 | That state renders its clauses in fixed order and binds where, having, offset, count |
| Scenarios.FullQuery | builder/builder.go:43-101 | Select, Where, GroupBy, Having, OrderBy and Limit render `SELECT a,b FROM t WHERE a = ? GROUP BY a HAVING COUNT(a) > ? ORDER BY a DESC LIMIT ? OFFSET ?` in shape, with parameters where, having, offset, count |
| Scenarios.UpdateWithoutWhere | builder/builder.go:196-217 | An update without a where renders `UPDATE t SET n = ? ` with the trailing space |
| Scenarios.UpdateWithWhere | builder/builder.go:196-224 | Update then Where renders the assignments, a space, the where fragment; the assignment values precede the where values |
| Scenarios.DeleteWithWhere | builder/builder.go:226-245 | DELETE renders the where fragment after one space and binds only its values |
| Scenarios.WhereInThree | builder/builder.go:326-358 | `WhereIn` with three values renders `WHERE f IN (?,?,?)` and binds the three values in order |
| Scenarios.InsertTwoFields | builder/builder.go:123-169 | Two fields render `INSERT INTO t (a,b) VALUES (?,?)` with both values bound |
| Scenarios.InsertNoFields | builder/builder.go:123-169 | No fields still render `INSERT INTO t () VALUES ()` |
| Scenarios.MissingStatements | builder/builder.go:153-203 | Without a table the query fails; with a table but no insert or update, those renderers fail with their own errors |
| Scenarios.HavingWithoutGroupBy | builder/builder.go:449-452 | A `Having` before any `GroupBy` reaches neither the text nor the parameters |
| Scenarios.TableOnlyRender | builder/builder.go:43-101 | A state with only a table renders `SELECT * FROM t` with no parameters |
| Scenarios.JoinWhereRender | builder/builder.go:43-101 | A state with a join and a where renders the join first, then the where, and binds in the same order |
| Scenarios.JoinBeforeWhere | builder/builder.go:43-101 | Join text is rendered before the where fragment, and its values come first too |

## Left out

- `builder/builder_test.go` and `main.go`: they open a database connection and print results; they are not part of this model.
- Executing statements, driver-side value conversion and Go's dynamic typing of `interface{}`: values are an opaque `Value` datatype.
- `strings.Builder`: modelled as plain string concatenation.
- The `_delete` field (builder/builder.go:12): it is never read or written.
- Pointer-returning fluent chaining and in-place mutation: a composer returns the new state instead.
- The error values' identity: each is modelled by its constructor, and `Render.Message` gives its text.
- `InsertAll`, `GetInsertAllSql`, `GetInsertAllParams` and `InsertAllModel`, called from the test file: they are not part of this model.
- Go slice aliasing: `GetInsertParams` and `GetDeleteParams` (builder/builder.go:171-173, 243-245) return the builder's own slice, and `HavingRaw`/`HavingRawOr` (builder/builder.go:412-439) store the caller's variadic slice, so a later write through either slice changes what a later render binds; the model's values are immutable sequences and cannot express this sharing.
- The four `WhereIn` entry points, `WhereOr`, `WhereOrRaw`, `HavingOr` and `HavingRawOr` are not separate members: each is the shared function with its `Conj` or `Membership` argument fixed, as the source's one-line wrappers do.

## Findings

| source | as written | input that shows it | evidently intended | confidence | as-written member | corrected member |
|---|---|---|---|---|---|---|
| builder/builder.go:360-366 | a second `Limit` replaces `LIMIT ? OFFSET ?` but appends its two values to the earlier two | `Table("t").Limit(0, 10).Limit(10, 10)`: two placeholders, four parameters | the second call replaces the limit parameters too | high; not executed | Findings.LimitTwiceOverbinds | Findings.LimitOverwrite |
| builder/builder.go:146-148 | a second `Insert` replaces the fragment but keeps the first call's values | `Table("t").Insert(["a"], 1).Insert(["a"], 2)`: one placeholder, two parameters | the second call replaces the insert parameters too | high; not executed | Findings.InsertTwiceOverbinds | Findings.InsertOverwrite |
| builder/builder.go:189-191 | a second `Update` replaces the fragment but keeps the first call's values | `Table("t").Update(["n"], "x").Update(["n"], "y")`: one placeholder, two parameters | the second call replaces the update parameters too | high; not executed | Findings.UpdateTwiceOverbinds | Findings.UpdateOverwrite |
| builder/builder.go:412-418 | `HavingRaw`/`HavingRawOr` pass `values` to the variadic `havingRaw` without `...`, so one parameter, the whole slice, is appended | `GroupBy("a").HavingRawOr("COUNT(a) > ? AND COUNT(b) > ?", 8, 9)` (the call in builder/builder_test.go:53): two placeholders, one parameter `[8, 9]` | one parameter per value | high; not executed | Findings.HavingRawMisaligns | Findings.HavingRawSpread |
| builder/builder.go:420-439 | `havingRaw` never looks at the group-by, so `HavingRaw`/`HavingRawOr` write a HAVING clause even with no group-by, while `Having`/`HavingOr` (builder/builder.go:449-452) drop theirs | `Table("t").HavingRaw("COUNT(a) > ?", 1)`: the SELECT has a HAVING clause and no GROUP BY | every HAVING call is dropped without a group-by | medium; not executed | Clauses.HavingRawUngated | Findings.HavingRawGated |

=== FILE: builder.dfy ===
/**
 The statement state of the SQL builder and its clause composers. The source
 mutates one record in place and returns it for chaining; here every composer
 is a pure function from the old state to the new one.
 */
module Builder {
  import opened Text

  /** A bind value. The builder never looks inside one; `List` is a whole slice passed as a single value. */
  datatype Value =
    | Null
    | Bool(b: bool)
    | Int(i: int)
    | Real(x: real)
    | Str(text: string)
    | List(items: seq<Value>)

  /** The boolean operator a WHERE or HAVING predicate is joined with. */
  datatype Conj = And | Or

  function Keyword(op: Conj): string
  {
    match op
    case And => "AND"
    case Or => "OR"
  }

  /** The condition of a `WhereIn` family call. */
  datatype Membership = In | NotIn

  function MembershipText(m: Membership): string
  {
    match m
    case In => "IN"
    case NotIn => "NOT IN"
  }

  /** One fragment per clause, and one parameter list per clause that can hold placeholders. */
  datatype State = State(
    select: string,
    insert: string,
    update: string,
    limit: string,
    orderBy: string,
    groupBy: string,
    table: string,
    join: string,
    where: string,
    having: string,
    insertParams: seq<Value>,
    updateParams: seq<Value>,
    whereParams: seq<Value>,
    joinParams: seq<Value>,
    havingParams: seq<Value>,
    limitParams: seq<Value>)

  /**
   Placeholder discipline: every placeholder-carrying fragment holds exactly as
   many `?` as its parameter list has entries, and the other fragments hold none.
   */
  predicate Aligned(s: State)
  {
    && Placeholders(s.select) == 0
    && Placeholders(s.table) == 0
    && Placeholders(s.groupBy) == 0
    && Placeholders(s.orderBy) == 0
    && Placeholders(s.insert) == |s.insertParams|
    && Placeholders(s.update) == |s.updateParams|
    && Placeholders(s.where) == |s.whereParams|
    && Placeholders(s.join) == |s.joinParams|
    && Placeholders(s.having) == |s.havingParams|
    && Placeholders(s.limit) == |s.limitParams|
  }

  /** A fresh builder: nothing set, so the placeholder discipline holds trivially. */
  function NewBuilder(): (s: State)
    ensures Aligned(s)
    ensures s.select == "" && s.insert == "" && s.update == "" && s.limit == "" && s.orderBy == ""
    ensures s.groupBy == "" && s.table == "" && s.join == "" && s.where == "" && s.having == ""
    ensures s.insertParams == [] && s.updateParams == [] && s.whereParams == []
    ensures s.joinParams == [] && s.havingParams == [] && s.limitParams == []
  {
    State("", "", "", "", "", "", "", "", "", "", [], [], [], [], [], [])
  }

  function Select(s: State, cols: seq<string>): (r: State)
    ensures r == s.(select := r.select)
    ensures r.select == Join(cols, ',')
    ensures cols == [] ==> r.select == ""
    ensures |cols| > 0 && (forall i :: 0 <= i < |cols| ==> ',' !in cols[i]) ==> Split(r.select, ',') == cols
    ensures NoPlaceholders(cols) ==> Placeholders(r.select) == 0
  {
    JoinFacts(cols, ',');
    s.(select := Join(cols, ','))
  }

  function Table(s: State, table: string): (r: State)
    ensures r.table == table
    ensures r == s.(table := table)
  {
    s.(table := table)
  }

  /** The `(f1,f2) VALUES (?,?)` fragment. */
  function InsertFragment(fields: seq<string>): string
  {
    "(" + Join(fields, ',') + ") VALUES (" + PlaceholderList(|fields|) + ")"
  }

  lemma InsertLayoutPlaceholders(names: string, marks: string)
    ensures Placeholders("(" + names + ") VALUES (" + marks + ")") == Placeholders(names) + Placeholders(marks)
  {
    CountAbsent("(", '?');
    CountAbsent(") VALUES (", '?');
    CountAbsent(")", '?');
    CountConcat3("(", names, ") VALUES (", '?');
    CountConcat3("(" + names + ") VALUES (", marks, ")", '?');
  }

  /** The names and the marks can be read back out of `(names) VALUES (marks)`. */
  lemma InsertLayout(names: string, marks: string)
    ensures var f := "(" + names + ") VALUES (" + marks + ")";
      && |f| == |names| + |marks| + 12
      && f[..1] == "(" && f[|f| - 1..] == ")"
      && f[1..1 + |names|] == names
      && f[1 + |names|..11 + |names|] == ") VALUES ("
      && f[11 + |names|..|f| - 1] == marks
      && Placeholders(f) == Placeholders(names) + Placeholders(marks)
  {
    var f := "(" + names + ") VALUES (" + marks + ")";
    assert |") VALUES ("| == 10;
    assert f[1..1 + |names|] == names;
    assert f[1 + |names|..11 + |names|] == ") VALUES (";
    assert f[11 + |names|..|f| - 1] == marks;
    InsertLayoutPlaceholders(names, marks);
  }

  lemma InsertFragmentPlaceholders(fields: seq<string>)
    ensures Placeholders(InsertFragment(fields)) == SumCount(fields, '?') + |fields|
  {
    JoinCount(fields, ',', '?');
    PlaceholderListShape(|fields|);
    InsertLayoutPlaceholders(Join(fields, ','), PlaceholderList(|fields|));
  }

  /**
   Replaces the insert fragment, but appends the values to the insert
   parameters. The fragment is never empty, even with no fields.
   */
  function Insert(s: State, fields: seq<string>, values: seq<Value>): (r: State)
    ensures r == s.(insert := r.insert, insertParams := r.insertParams)
    ensures r.insert != ""
    ensures r.insert == "(" + Join(fields, ',') + ") VALUES (" + PlaceholderList(|fields|) + ")"
    ensures var n := |Join(fields, ',')|;
      |fields| > 0 && (forall i :: 0 <= i < |fields| ==> ',' !in fields[i]) ==>
        && Split(r.insert[1..1 + n], ',') == fields
        && Split(r.insert[11 + n..|r.insert| - 1], ',') == Copies(|fields|, "?")
    ensures r.insertParams == s.insertParams + values
    ensures Placeholders(r.insert) == SumCount(fields, '?') + |fields|
    ensures Aligned(s) && s.insert == "" && NoPlaceholders(fields) && |values| == |fields| ==> Aligned(r)
  {
    InsertFragmentPlaceholders(fields);
    JoinFacts(fields, ',');
    PlaceholderListShape(|fields|);
    InsertLayout(Join(fields, ','), PlaceholderList(|fields|));
    s.(insert := InsertFragment(fields), insertParams := s.insertParams + values)
  }

  /** One `f = ?` assignment per field. */
  function Assignments(fields: seq<string>): (r: seq<string>)
    ensures |r| == |fields|
    ensures forall i :: 0 <= i < |fields| ==> r[i] == fields[i] + " = ?"
  {
    if |fields| == 0 then [] else [fields[0] + " = ?"] + Assignments(fields[1..])
  }

  lemma {:induction false} AssignmentsPlaceholders(fields: seq<string>)
    ensures SumCount(Assignments(fields), '?') == SumCount(fields, '?') + |fields|
  {
    if |fields| > 0 {
      assert Assignments(fields)[1..] == Assignments(fields[1..]);
      AssignmentsPlaceholders(fields[1..]);
      CountConcat(fields[0], " = ?", '?');
    }
  }

  lemma AssignmentsSeparatorFree(fields: seq<string>)
    ensures (forall i :: 0 <= i < |fields| ==> ',' !in fields[i]) ==>
      forall i :: 0 <= i < |fields| ==> ',' !in Assignments(fields)[i]
  {
    if forall i :: 0 <= i < |fields| ==> ',' !in fields[i] {
      forall i | 0 <= i < |fields| ensures ',' !in Assignments(fields)[i] {
        assert Assignments(fields)[i] == fields[i] + " = ?";
      }
    }
  }

  /**
   Replaces the update fragment, but appends the values to the update
   parameters. No fields give an empty fragment.
   */
  function Update(s: State, fields: seq<string>, values: seq<Value>): (r: State)
    ensures r == s.(update := r.update, updateParams := r.updateParams)
    ensures r.update == "" <==> fields == []
    ensures r.updateParams == s.updateParams + values
    ensures Placeholders(r.update) == SumCount(fields, '?') + |fields|
    ensures |fields| > 0 && (forall i :: 0 <= i < |fields| ==> ',' !in fields[i]) ==>
      Split(r.update, ',') == Assignments(fields)
    ensures Aligned(s) && s.update == "" && NoPlaceholders(fields) && |values| == |fields| ==> Aligned(r)
    ensures r.update == Join(Assignments(fields), ',')
  {
    var a := Assignments(fields);
    JoinFacts(a, ',');
    JoinFacts(fields, ',');
    AssignmentsPlaceholders(fields);
    AssignmentsSeparatorFree(fields);
    s.(update := Join(a, ','), updateParams := s.updateParams + values)
  }

  /** The ` AND ` / ` OR ` connector holds no placeholder. */
  lemma ConnectorPlaceholders(op: Conj)
    ensures Placeholders(" " + Keyword(op) + " ") == 0
  {
    CountAbsent(" " + Keyword(op) + " ", '?');
  }

  /**
   The joining rule shared by the WHERE and HAVING composers: an empty fragment
   is seeded with the clause keyword, a non-empty one gets ` AND ` or ` OR `.
   */
  function Connect(frag: string, seed: string, op: Conj, clause: string): string
  {
    if frag == "" then seed + clause else frag + " " + Keyword(op) + " " + clause
  }

  lemma ConnectPlaceholders(frag: string, seed: string, op: Conj, clause: string)
    ensures Placeholders(Connect(frag, seed, op, clause)) ==
      (if frag == "" then Placeholders(seed) else Placeholders(frag)) + Placeholders(clause)
  {
    if frag == "" {
      CountConcat(seed, clause, '?');
    } else {
      ConnectorPlaceholders(op);
      CountConcat3(frag, " " + Keyword(op) + " ", clause, '?');
      assert frag + " " + Keyword(op) + " " + clause == frag + (" " + Keyword(op) + " ") + clause;
    }
  }

  /** The `field condition ?` predicate text. */
  function Comparison(field: string, condition: string): (r: string)
    ensures Placeholders(r) == Placeholders(field) + Placeholders(condition) + 1
  {
    CountConcat3(field, " ", condition, '?');
    CountConcat(field + " " + condition, " ?", '?');
    field + " " + condition + " ?"
  }

  /** The `field IN (?,?,...)` predicate text, one placeholder per value. */
  function MembershipTest(field: string, m: Membership, k: nat): (r: string)
    ensures Placeholders(r) == Placeholders(field) + k
  {
    PlaceholderListShape(k);
    CountAbsent(MembershipText(m), '?');
    MembershipTestPlaceholders(field, MembershipText(m), PlaceholderList(k));
    field + " " + MembershipText(m) + " (" + PlaceholderList(k) + ")"
  }

  lemma MembershipTestPlaceholders(field: string, cond: string, marks: string)
    requires Placeholders(cond) == 0
    ensures Placeholders(field + " " + cond + " (" + marks + ")") == Placeholders(field) + Placeholders(marks)
  {
    CountConcat3(field, " ", cond, '?');
    CountConcat3(field + " " + cond, " (", marks, '?');
    CountConcat(field + " " + cond + " (" + marks, ")", '?');
  }

  /** `Where` (AND) and `WhereOr` (OR): one comparison and one bind value. */
  function Where(s: State, op: Conj, field: string, condition: string, value: Value): (r: State)
    ensures r == s.(where := r.where, whereParams := r.whereParams)
    ensures s.where == "" ==> r.where == "WHERE " + (field + " " + condition + " ?")
    ensures s.where != "" ==> r.where == s.where + " " + Keyword(op) + " " + (field + " " + condition + " ?")
    ensures r.whereParams == s.whereParams + [value]
    ensures Placeholders(r.where) == Placeholders(s.where) + Placeholders(field) + Placeholders(condition) + 1
    ensures Aligned(s) && Placeholders(field) == 0 && Placeholders(condition) == 0 ==> Aligned(r)
  {
    ConnectPlaceholders(s.where, "WHERE ", op, Comparison(field, condition));
    CountAbsent("WHERE ", '?');
    s.(where := Connect(s.where, "WHERE ", op, Comparison(field, condition)),
       whereParams := s.whereParams + [value])
  }

  /**
   `WhereRaw` (AND) and `WhereOrRaw` (OR): the text goes in verbatim and every
   value is appended; the two counts are not compared.
   */
  function WhereRaw(s: State, op: Conj, text: string, values: seq<Value>): (r: State)
    ensures r == s.(where := r.where, whereParams := r.whereParams)
    ensures s.where == "" ==> r.where == "WHERE " + text
    ensures s.where != "" ==> r.where == s.where + " " + Keyword(op) + " " + text
    ensures r.whereParams == s.whereParams + values
    ensures Placeholders(r.where) == Placeholders(s.where) + Placeholders(text)
    ensures Aligned(s) && Placeholders(text) == |values| ==> Aligned(r)
  {
    ConnectPlaceholders(s.where, "WHERE ", op, text);
    CountAbsent("WHERE ", '?');
    s.(where := Connect(s.where, "WHERE ", op, text), whereParams := s.whereParams + values)
  }

  /**
   `WhereIn`, `WhereNotIn`, `WhereOrIn`, `WhereOrNotIn`: one placeholder per
   value, and all the values appended in order.
   */
  function WhereIn(s: State, op: Conj, m: Membership, field: string, values: seq<Value>): (r: State)
    ensures r == s.(where := r.where, whereParams := r.whereParams)
    ensures s.where == "" ==>
      r.where == "WHERE " + (field + " " + MembershipText(m) + " (" + PlaceholderList(|values|) + ")")
    ensures s.where != "" ==>
      r.where == s.where + " " + Keyword(op) + " " + (field + " " + MembershipText(m) + " (" + PlaceholderList(|values|) + ")")
    ensures r.whereParams == s.whereParams + values
    ensures Placeholders(r.where) == Placeholders(s.where) + Placeholders(field) + |values|
    ensures Aligned(s) && Placeholders(field) == 0 ==> Aligned(r)
  {
    ConnectPlaceholders(s.where, "WHERE ", op, MembershipTest(field, m, |values|));
    CountAbsent("WHERE ", '?');
    s.(where := Connect(s.where, "WHERE ", op, MembershipTest(field, m, |values|)),
       whereParams := s.whereParams + values)
  }

  /** Raw join text, separated by one space from earlier join text when there is any. */
  function JoinRaw(s: State, text: string, values: seq<Value>): (r: State)
    ensures r == s.(join := r.join, joinParams := r.joinParams)
    ensures s.join == "" ==> r.join == text
    ensures s.join != "" ==> r.join == s.join + " " + text
    ensures r.joinParams == s.joinParams + values
    ensures Placeholders(r.join) == Placeholders(s.join) + Placeholders(text)
    ensures Aligned(s) && Placeholders(text) == |values| ==> Aligned(r)
  {
    if s.join == "" then
      s.(join := text, joinParams := s.joinParams + values)
    else
      CountConcat3(s.join, " ", text, '?');
      s.(join := s.join + " " + text, joinParams := s.joinParams + values)
  }

  /** Sets the single-field group-by fragment; afterwards `Having` is no longer ignored. */
  function GroupBy(s: State, field: string): (r: State)
    ensures r == s.(groupBy := r.groupBy)
    ensures r.groupBy == "GROUP BY " + field
    ensures r.groupBy != ""
    ensures Placeholders(r.groupBy) == Placeholders(field)
  {
    PlainConcat("GROUP BY ", field);
    s.(groupBy := "GROUP BY " + field)
  }

  /**
   `Having` (AND) and `HavingOr` (OR): ignored entirely while no group-by is
   set; otherwise like `Where` on the having fragment.
   */
  function Having(s: State, op: Conj, field: string, condition: string, value: Value): (r: State)
    ensures s.groupBy == "" ==> r == s
    ensures r == s.(having := r.having, havingParams := r.havingParams)
    ensures s.groupBy != "" && s.having == "" ==> r.having == "HAVING " + (field + " " + condition + " ?")
    ensures s.groupBy != "" && s.having != "" ==>
      r.having == s.having + " " + Keyword(op) + " " + (field + " " + condition + " ?")
    ensures s.groupBy != "" ==> r.havingParams == s.havingParams + [value]
    ensures s.groupBy != "" ==>
      Placeholders(r.having) == Placeholders(s.having) + Placeholders(field) + Placeholders(condition) + 1
    ensures Aligned(s) && Placeholders(field) == 0 && Placeholders(condition) == 0 ==> Aligned(r)
  {
    if s.groupBy == "" then s
    else
      ConnectPlaceholders(s.having, "HAVING ", op, Comparison(field, condition));
      CountAbsent("HAVING ", '?');
      s.(having := Connect(s.having, "HAVING ", op, Comparison(field, condition)),
         havingParams := s.havingParams + [value])
  }

  /**
   `HavingRaw` (AND) and `HavingRawOr` (OR), as written: not gated on the
   group-by, and the whole value list is appended as ONE parameter, because the
   variadic values are forwarded without being spread.
   */
  function HavingRaw(s: State, op: Conj, text: string, values: seq<Value>): (r: State)
    ensures r == s.(having := r.having, havingParams := r.havingParams)
    ensures s.having == "" ==> r.having == "HAVING " + text
    ensures s.having != "" ==> r.having == s.having + " " + Keyword(op) + " " + text
    ensures |r.havingParams| == |s.havingParams| + 1
    ensures r.havingParams == s.havingParams + [List(values)]
    ensures Placeholders(r.having) == Placeholders(s.having) + Placeholders(text)
  {
    ConnectPlaceholders(s.having, "HAVING ", op, text);
    CountAbsent("HAVING ", '?');
    s.(having := Connect(s.having, "HAVING ", op, text), havingParams := s.havingParams + [List(values)])
  }

  lemma OrderByLayout(names: string, direction: string)
    ensures var f := "ORDER BY " + names + " " + direction;
      && f[|"ORDER BY "|..|f| - |direction| - 1] == names
      && Placeholders(f) == Placeholders(names) + Placeholders(direction)
  {
    var f := "ORDER BY " + names + " " + direction;
    CountAbsent("ORDER BY ", '?');
    CountAbsent(" ", '?');
    CountConcat3("ORDER BY ", names, " ", '?');
    CountConcat("ORDER BY " + names + " ", direction, '?');
    assert |f| == 9 + |names| + 1 + |direction|;
    assert f[9..|f| - |direction| - 1] == names;
  }

  /** The limit fragment, written as two halves so that its placeholders can be counted. */
  lemma LimitPlaceholders()
    ensures Placeholders("LIMIT ?" + " OFFSET ?") == 2
  {
    CountAbsent("LIMIT ", '?');
    CountAbsent(" OFFSET ", '?');
    assert Placeholders("?") == 1;
    assert "LIMIT ?" == "LIMIT " + "?" && " OFFSET ?" == " OFFSET " + "?";
    CountConcat("LIMIT ", "?", '?');
    CountConcat(" OFFSET ", "?", '?');
    CountConcat("LIMIT ?", " OFFSET ?", '?');
  }

  /** `ORDER BY f1,f2 dir`: one direction token for the whole list. */
  function OrderBy(s: State, direction: string, fields: seq<string>): (r: State)
    ensures r == s.(orderBy := r.orderBy)
    ensures r.orderBy == "ORDER BY " + Join(fields, ',') + " " + direction
    ensures |fields| > 0 && (forall i :: 0 <= i < |fields| ==> ',' !in fields[i]) ==>
      Split(r.orderBy[|"ORDER BY "|..|r.orderBy| - |direction| - 1], ',') == fields
    ensures Placeholders(r.orderBy) == SumCount(fields, '?') + Placeholders(direction)
  {
    var names := Join(fields, ',');
    JoinFacts(fields, ',');
    OrderByLayout(names, direction);
    s.(orderBy := "ORDER BY " + names + " " + direction)
  }

  /**
   Always sets `LIMIT ? OFFSET ?`, and appends offset then count to the limit
   parameters: a second call leaves four parameters behind two placeholders.
   */
  function Limit(s: State, offset: Value, num: Value): (r: State)
    ensures r == s.(limit := r.limit, limitParams := r.limitParams)
    ensures r.limit == "LIMIT ? OFFSET ?"
    ensures Placeholders(r.limit) == 2
    ensures r.limitParams == s.limitParams + [offset, num]
    ensures Aligned(s) && s.limit == "" ==> Aligned(r)
  {
    LimitPlaceholders();
    s.(limit := "LIMIT ?" + " OFFSET ?", limitParams := s.limitParams + [offset, num])
  }
}

=== FILE: clauses.dfy ===
/**
 What a whole chain of WHERE, HAVING or JOIN calls builds. Each composer
 extends its fragment one call at a time; the lemmas here show that the
 result equals a declarative rendering of the complete list of predicates,
 and that the parameter list follows the same left-to-right order.
 */
module Clauses {
  import opened Text
  import opened Builder

  /** One predicate of a WHERE or HAVING expression: its connector and its text. */
  datatype Pred = Pred(op: Conj, text: string)

  /** ` op text` for every predicate, in order. */
  function Chain(ps: seq<Pred>): string
  {
    if |ps| == 0 then "" else " " + Keyword(ps[0].op) + " " + ps[0].text + Chain(ps[1..])
  }

  /**
   A whole expression: the clause keyword, the first predicate's text (its
   connector is never written), then the others chained. No predicates, no text.
   */
  function Expression(keyword: string, ps: seq<Pred>): string
  {
    if |ps| == 0 then "" else keyword + ps[0].text + Chain(ps[1..])
  }

  /** The fragment the composers build from `frag` by connecting each predicate in turn. */
  function Fold(frag: string, seed: string, ps: seq<Pred>): string
  {
    if |ps| == 0 then frag
    else Connect(Fold(frag, seed, ps[..|ps| - 1]), seed, ps[|ps| - 1].op, ps[|ps| - 1].text)
  }

  lemma {:induction false} ChainSnoc(ps: seq<Pred>, p: Pred)
    ensures Chain(ps + [p]) == Chain(ps) + " " + Keyword(p.op) + " " + p.text
  {
    if |ps| == 0 {
      assert ps + [p] == [p];
      assert Chain([p]) == " " + Keyword(p.op) + " " + p.text + Chain([]);
    } else {
      assert (ps + [p])[0] == ps[0];
      assert (ps + [p])[1..] == ps[1..] + [p];
      ChainSnoc(ps[1..], p);
    }
  }

  /** Appending the four pieces of a connector one at a time is appending their concatenation. */
  lemma AppendConnector(x: string, k: string, t: string)
    ensures x + " " + k + " " + t == x + (" " + k + " " + t)
  {
    var a := x + " ";
    assert a + k == x + (" " + k);
    assert a + k + " " == x + (" " + k + " ");
    assert a + k + " " + t == x + (" " + k + " " + t);
  }

  lemma ExpressionSnoc(keyword: string, ps: seq<Pred>, p: Pred)
    requires |ps| > 0
    ensures Expression(keyword, ps + [p]) == Expression(keyword, ps) + " " + Keyword(p.op) + " " + p.text
  {
    var q := ps + [p];
    assert q[0] == ps[0];
    assert q[1..] == ps[1..] + [p];
    ChainSnoc(ps[1..], p);
    var head := keyword + ps[0].text;
    var c := " " + Keyword(p.op) + " " + p.text;
    AppendConnector(Chain(ps[1..]), Keyword(p.op), p.text);
    AppendConnector(head + Chain(ps[1..]), Keyword(p.op), p.text);
    assert head + (Chain(ps[1..]) + c) == head + Chain(ps[1..]) + c;
  }

  lemma ConnectContinues(frag: string, seed: string, init: seq<Pred>, p: Pred)
    requires frag != ""
    ensures Connect(frag + Chain(init), seed, p.op, p.text) == frag + Chain(init + [p])
  {
    ChainSnoc(init, p);
    var c := " " + Keyword(p.op) + " " + p.text;
    var x := frag + Chain(init);
    assert |x| >= |frag|;
    AppendConnector(x, Keyword(p.op), p.text);
    AppendConnector(Chain(init), Keyword(p.op), p.text);
    assert x + c == frag + (Chain(init) + c);
  }

  lemma ConnectExtends(seed: string, init: seq<Pred>, p: Pred)
    requires seed != "" && |init| > 0
    ensures Connect(Expression(seed, init), seed, p.op, p.text) == Expression(seed, init + [p])
  {
    assert |Expression(seed, init)| >= |seed|;
    ExpressionSnoc(seed, init, p);
  }

  lemma ConnectSeeds(seed: string, p: Pred)
    ensures Connect(Expression(seed, []), seed, p.op, p.text) == Expression(seed, [] + [p])
  {
    assert [] + [p] == [p];
    assert Expression(seed, [p]) == seed + p.text + "";
  }

  /** The accumulated fragment is the declarative expression, continued after any earlier text. */
  lemma {:induction false} FoldReference(frag: string, seed: string, ps: seq<Pred>)
    requires seed != ""
    ensures Fold(frag, seed, ps) == if frag == "" then Expression(seed, ps) else frag + Chain(ps)
  {
    if |ps| > 0 {
      var init, p := ps[..|ps| - 1], ps[|ps| - 1];
      assert ps == init + [p];
      FoldReference(frag, seed, init);
      if frag != "" {
        ConnectContinues(frag, seed, init, p);
      } else if |init| == 0 {
        ConnectSeeds(seed, p);
      } else {
        ConnectExtends(seed, init, p);
      }
    }
  }

  /** A WHERE-family call: `Where`/`WhereOr`, one of the four `WhereIn` forms, or `WhereRaw`/`WhereOrRaw`. */
  datatype Condition =
    | Compare(op: Conj, field: string, condition: string, value: Value)
    | Member(op: Conj, m: Membership, field: string, values: seq<Value>)
    | RawText(op: Conj, text: string, values: seq<Value>)

  /** The predicate a call contributes. */
  function ConditionPred(c: Condition): Pred
  {
    match c
    case Compare(op, f, k, _) => Pred(op, f + " " + k + " ?")
    case Member(op, m, f, vs) => Pred(op, f + " " + MembershipText(m) + " (" + PlaceholderList(|vs|) + ")")
    case RawText(op, t, _) => Pred(op, t)
  }

  /** The bind values a call contributes. */
  function ConditionValues(c: Condition): seq<Value>
  {
    match c
    case Compare(_, _, _, v) => [v]
    case Member(_, _, _, vs) => vs
    case RawText(_, _, vs) => vs
  }

  function ApplyCondition(s: State, c: Condition): State
  {
    match c
    case Compare(op, f, k, v) => Where(s, op, f, k, v)
    case Member(op, m, f, vs) => WhereIn(s, op, m, f, vs)
    case RawText(op, t, vs) => WhereRaw(s, op, t, vs)
  }

  /** The calls applied left to right. */
  function ApplyConditions(s: State, cs: seq<Condition>): State
  {
    if |cs| == 0 then s else ApplyCondition(ApplyConditions(s, cs[..|cs| - 1]), cs[|cs| - 1])
  }

  function ConditionPreds(cs: seq<Condition>): (ps: seq<Pred>)
    ensures |ps| == |cs|
    ensures forall i :: 0 <= i < |cs| ==> ps[i] == ConditionPred(cs[i])
  {
    seq(|cs|, i requires 0 <= i < |cs| => ConditionPred(cs[i]))
  }

  function AllConditionValues(cs: seq<Condition>): seq<Value>
  {
    if |cs| == 0 then [] else AllConditionValues(cs[..|cs| - 1]) + ConditionValues(cs[|cs| - 1])
  }

  /** One call extends the where fragment by its predicate and the parameters by its values. */
  lemma ApplyConditionStep(s: State, c: Condition)
    ensures var r := ApplyCondition(s, c);
      && r == s.(where := r.where, whereParams := r.whereParams)
      && r.where == Connect(s.where, "WHERE ", ConditionPred(c).op, ConditionPred(c).text)
      && r.whereParams == s.whereParams + ConditionValues(c)
  {
  }

  /**
   Any chain of WHERE-family calls leaves every other clause alone, renders
   the declarative expression of all its predicates (seeded with `WHERE `, or
   continued after the text already there), and appends all its values in order.
   */
  lemma {:induction false} WhereAccumulation(s: State, cs: seq<Condition>)
    ensures var r := ApplyConditions(s, cs);
      && r == s.(where := r.where, whereParams := r.whereParams)
      && r.where == (if s.where == "" then Expression("WHERE ", ConditionPreds(cs)) else s.where + Chain(ConditionPreds(cs)))
      && r.whereParams == s.whereParams + AllConditionValues(cs)
  {
    WhereFold(s, cs);
    FoldReference(s.where, "WHERE ", ConditionPreds(cs));
  }

  lemma ConditionSnoc(init: seq<Condition>, c: Condition)
    ensures ConditionPreds(init + [c]) == ConditionPreds(init) + [ConditionPred(c)]
    ensures AllConditionValues(init + [c]) == AllConditionValues(init) + ConditionValues(c)
  {
    assert (init + [c])[..|init|] == init;
  }

  /** Connecting one more predicate to a folded where fragment folds the longer chain. */
  lemma WhereFoldStep(w: string, tw: string, rw: string, init: seq<Condition>, c: Condition)
    requires tw == Fold(w, "WHERE ", ConditionPreds(init))
    requires rw == Connect(tw, "WHERE ", ConditionPred(c).op, ConditionPred(c).text)
    ensures rw == Fold(w, "WHERE ", ConditionPreds(init + [c]))
  {
    ConditionSnoc(init, c);
    FoldSnoc(w, "WHERE ", ConditionPreds(init), ConditionPred(c));
  }

  /** Appending one more call's values to the folded parameters appends them to the whole chain's. */
  lemma WhereValuesStep(ps: seq<Value>, tp: seq<Value>, rp: seq<Value>, init: seq<Condition>, c: Condition)
    requires tp == ps + AllConditionValues(init)
    requires rp == tp + ConditionValues(c)
    ensures rp == ps + AllConditionValues(init + [c])
  {
    ConditionSnoc(init, c);
    assert ps + AllConditionValues(init) + ConditionValues(c)
        == ps + (AllConditionValues(init) + ConditionValues(c));
  }

  lemma {:induction false} WhereFold(s: State, cs: seq<Condition>)
    ensures var r := ApplyConditions(s, cs);
      && r == s.(where := r.where, whereParams := r.whereParams)
      && r.where == Fold(s.where, "WHERE ", ConditionPreds(cs))
      && r.whereParams == s.whereParams + AllConditionValues(cs)
  {
    if |cs| > 0 {
      var init, c := cs[..|cs| - 1], cs[|cs| - 1];
      assert cs == init + [c];
      WhereFold(s, init);
      var t := ApplyConditions(s, init);
      ApplyConditionStep(t, c);
      var r := ApplyCondition(t, c);
      WhereFoldStep(s.where, t.where, r.where, init, c);
      WhereValuesStep(s.whereParams, t.whereParams, r.whereParams, init, c);
    }
  }

  /** A call whose predicate carries exactly as many placeholders as it binds values. */
  predicate Balanced(c: Condition)
  {
    match c
    case Compare(_, f, k, _) => Placeholders(f) == 0 && Placeholders(k) == 0
    case Member(_, _, f, _) => Placeholders(f) == 0
    case RawText(_, t, vs) => Placeholders(t) == |vs|
  }

  /**
   Placeholder/parameter correspondence for the where clause: over any chain
   of balanced calls the count of `?` and the count of values grow together,
   and every intermediate fragment and parameter list is a prefix of the final
   ones, so the k-th placeholder and the k-th value come from the same call.
   */
  lemma {:induction false} WherePlaceholders(s: State, cs: seq<Condition>)
    requires forall i :: 0 <= i < |cs| ==> Balanced(cs[i])
    ensures var r := ApplyConditions(s, cs);
      && Placeholders(r.where) - |r.whereParams| == Placeholders(s.where) - |s.whereParams|
      && s.where <= r.where
      && s.whereParams <= r.whereParams
  {
    if |cs| > 0 {
      var init, c := cs[..|cs| - 1], cs[|cs| - 1];
      assert forall i :: 0 <= i < |init| ==> Balanced(init[i]) by {
        forall i | 0 <= i < |init| ensures Balanced(init[i]) {
          assert init[i] == cs[i];
        }
      }
      WherePlaceholders(s, init);
      assert Balanced(c);
    }
  }

  /** Every prefix of a chain builds a prefix of the final fragment and of its parameters. */
  lemma WhereOrder(s: State, cs: seq<Condition>, k: nat)
    requires k <= |cs|
    ensures ApplyConditions(s, cs[..k]).where <= ApplyConditions(s, cs).where
    ensures ApplyConditions(s, cs[..k]).whereParams <= ApplyConditions(s, cs).whereParams
  {
    var front, back := cs[..k], cs[k..];
    assert front + back == cs;
    var t := ApplyConditions(s, front);
    WhereSuffix(t, front, back, s);
    assert ApplyConditions(s, cs) == ApplyConditions(t, back);
  }

  lemma {:induction false} WhereSuffix(t: State, front: seq<Condition>, back: seq<Condition>, s: State)
    requires t == ApplyConditions(s, front)
    ensures ApplyConditions(s, front + back) == ApplyConditions(t, back)
    ensures t.where <= ApplyConditions(t, back).where
    ensures t.whereParams <= ApplyConditions(t, back).whereParams
  {
    if |back| == 0 {
      assert front + back == front;
    } else {
      var init, c := back[..|back| - 1], back[|back| - 1];
      WhereSuffix(t, front, init, s);
      assert (front + back)[..|front + back| - 1] == front + init;
      var u := ApplyConditions(t, init);
      assert ApplyConditions(t, back) == ApplyCondition(u, c);
      assert ApplyConditions(s, front + back) == ApplyCondition(ApplyConditions(s, front + init), c);
      WhereGrows(u, c);
    }
  }

  /** One call only extends the where fragment and parameters. */
  lemma WhereGrows(u: State, c: Condition)
    ensures u.where <= ApplyCondition(u, c).where
    ensures u.whereParams <= ApplyCondition(u, c).whereParams
  {
    ApplyConditionStep(u, c);
  }

  /** A HAVING-family call: `Having`/`HavingOr`, or `HavingRaw`/`HavingRawOr`. */
  datatype HavingCall =
    | HavingCompare(op: Conj, field: string, condition: string, value: Value)
    | HavingText(op: Conj, text: string, values: seq<Value>)

  function ApplyHavingCall(s: State, h: HavingCall): State
  {
    match h
    case HavingCompare(op, f, k, v) => Having(s, op, f, k, v)
    case HavingText(op, t, vs) => HavingRaw(s, op, t, vs)
  }

  function ApplyHavingCalls(s: State, hs: seq<HavingCall>): State
  {
    if |hs| == 0 then s else ApplyHavingCall(ApplyHavingCalls(s, hs[..|hs| - 1]), hs[|hs| - 1])
  }

  /** Whether a call takes effect: comparisons only once a group-by is set, raw text always. */
  predicate TakesEffect(h: HavingCall, grouped: bool)
  {
    h.HavingText? || grouped
  }

  /** The calls that take effect, in order. */
  function Effective(hs: seq<HavingCall>, grouped: bool): seq<HavingCall>
  {
    if |hs| == 0 then []
    else Effective(hs[..|hs| - 1], grouped) + (if TakesEffect(hs[|hs| - 1], grouped) then [hs[|hs| - 1]] else [])
  }

  function HavingPred(h: HavingCall): Pred
  {
    match h
    case HavingCompare(op, f, k, _) => Pred(op, f + " " + k + " ?")
    case HavingText(op, t, _) => Pred(op, t)
  }

  function HavingPreds(hs: seq<HavingCall>): (ps: seq<Pred>)
    ensures |ps| == |hs|
    ensures forall i :: 0 <= i < |hs| ==> ps[i] == HavingPred(hs[i])
  {
    seq(|hs|, i requires 0 <= i < |hs| => HavingPred(hs[i]))
  }

  /** The parameters a call contributes: a raw call adds its whole value list as one element. */
  function HavingValues(hs: seq<HavingCall>): seq<Value>
  {
    if |hs| == 0 then []
    else HavingValues(hs[..|hs| - 1]) + match hs[|hs| - 1]
      case HavingCompare(_, _, _, v) => [v]
      case HavingText(_, _, vs) => [List(vs)]
  }

  lemma ApplyHavingStep(s: State, h: HavingCall)
    ensures var r := ApplyHavingCall(s, h);
      && r == s.(having := r.having, havingParams := r.havingParams)
      && (TakesEffect(h, s.groupBy != "") ==>
            r.having == Connect(s.having, "HAVING ", HavingPred(h).op, HavingPred(h).text)
            && r.havingParams == s.havingParams + HavingValues([h]))
      && (!TakesEffect(h, s.groupBy != "") ==> r == s)
  {
    assert [h][..0] == [];
  }

  lemma FoldSnoc(frag: string, seed: string, ps: seq<Pred>, p: Pred)
    ensures Fold(frag, seed, ps + [p]) == Connect(Fold(frag, seed, ps), seed, p.op, p.text)
  {
    assert (ps + [p])[..|ps|] == ps;
  }

  lemma HavingSnoc(e: seq<HavingCall>, h: HavingCall)
    ensures HavingPreds(e + [h]) == HavingPreds(e) + [HavingPred(h)]
    ensures HavingValues(e + [h]) == HavingValues(e) + HavingValues([h])
  {
    assert (e + [h])[..|e|] == e;
    assert [h][..0] == [];
  }

  /** One more call through the gate extends the effective calls by it exactly when it takes effect. */
  lemma HavingFoldStep(s: State, t: State, e: seq<HavingCall>, h: HavingCall)
    requires t == s.(having := t.having, havingParams := t.havingParams)
    requires t.having == Fold(s.having, "HAVING ", HavingPreds(e))
    requires t.havingParams == s.havingParams + HavingValues(e)
    ensures var r := ApplyHavingCall(t, h);
      var e' := e + (if TakesEffect(h, s.groupBy != "") then [h] else []);
      && r == s.(having := r.having, havingParams := r.havingParams)
      && r.having == Fold(s.having, "HAVING ", HavingPreds(e'))
      && r.havingParams == s.havingParams + HavingValues(e')
  {
    ApplyHavingStep(t, h);
    if TakesEffect(h, s.groupBy != "") {
      HavingSnoc(e, h);
      FoldSnoc(s.having, "HAVING ", HavingPreds(e), HavingPred(h));
    } else {
      assert e + [] == e;
    }
  }

  lemma {:induction false} HavingFold(s: State, hs: seq<HavingCall>)
    ensures var r := ApplyHavingCalls(s, hs);
      && r == s.(having := r.having, havingParams := r.havingParams)
      && r.having == Fold(s.having, "HAVING ", HavingPreds(Effective(hs, s.groupBy != "")))
      && r.havingParams == s.havingParams + HavingValues(Effective(hs, s.groupBy != ""))
  {
    if |hs| > 0 {
      var init, h := hs[..|hs| - 1], hs[|hs| - 1];
      HavingFold(s, init);
      HavingFoldStep(s, ApplyHavingCalls(s, init), Effective(init, s.groupBy != ""), h);
    }
  }

  /**
   Any chain of HAVING-family calls leaves every other clause alone: while no
   group-by is set only the raw calls take effect, and the having fragment is
   the declarative expression of the calls that took effect, seeded with
   `HAVING `; each raw call adds exactly one parameter, its packed value list.
   */
  lemma HavingAccumulation(s: State, hs: seq<HavingCall>)
    ensures var r := ApplyHavingCalls(s, hs);
      var e := Effective(hs, s.groupBy != "");
      && r == s.(having := r.having, havingParams := r.havingParams)
      && r.having == (if s.having == "" then Expression("HAVING ", HavingPreds(e)) else s.having + Chain(HavingPreds(e)))
      && r.havingParams == s.havingParams + HavingValues(e)
  {
    HavingFold(s, hs);
    FoldReference(s.having, "HAVING ", HavingPreds(Effective(hs, s.groupBy != "")));
  }

  /** `Having` leaves the state untouched exactly when no group-by is set. */
  lemma HavingGate(s: State, op: Conj, field: string, condition: string, value: Value)
    ensures Having(s, op, field, condition, value) == s <==> s.groupBy == ""
  {
    if s.groupBy != "" {
      assert |Having(s, op, field, condition, value).havingParams| == |s.havingParams| + 1;
    }
  }

  /** After a `GroupBy`, a `Having` on an empty having fragment seeds it with `HAVING `. */
  lemma GroupByEnablesHaving(s: State, group: string, op: Conj, field: string, condition: string, value: Value)
    requires s.having == ""
    ensures var r := Having(GroupBy(s, group), op, field, condition, value);
      "HAVING " <= r.having && r.havingParams == s.havingParams + [value]
  {
  }

  /** The raw HAVING calls bypass the group-by gate. */
  lemma HavingRawUngated(s: State, op: Conj, text: string, values: seq<Value>)
    requires s.groupBy == ""
    ensures HavingRaw(s, op, text, values) != s
    ensures HavingRaw(s, op, text, values).havingParams == s.havingParams + [List(values)]
  {
    assert |HavingRaw(s, op, text, values).havingParams| == |s.havingParams| + 1;
  }

  /** Drops the empty texts at the front: they leave the join fragment empty. */
  function DropLeadingEmpty(ps: seq<string>): (r: seq<string>)
    ensures |r| > 0 ==> r[0] != ""
  {
    if |ps| > 0 && ps[0] == "" then DropLeadingEmpty(ps[1..]) else ps
  }

  /** Only the leading empty texts go: the result is a suffix, and everything cut off is empty. */
  lemma {:induction false} DropLeadingEmptyKeeps(ps: seq<string>)
    ensures var r := DropLeadingEmpty(ps);
      && |r| <= |ps| && r == ps[|ps| - |r|..]
      && forall i :: 0 <= i < |ps| - |r| ==> ps[i] == ""
  {
    if |ps| > 0 && ps[0] == "" {
      DropLeadingEmptyKeeps(ps[1..]);
      var r := DropLeadingEmpty(ps[1..]);
      assert ps[1..][|ps| - 1 - |r|..] == ps[|ps| - |r|..];
      forall i | 0 <= i < |ps| - |r|
        ensures ps[i] == ""
      {
        if i > 0 {
          assert ps[i] == ps[1..][i - 1];
        }
      }
    }
  }

  lemma {:induction false} DropLeadingEmptySnoc(ps: seq<string>, t: string)
    ensures DropLeadingEmpty(ps + [t]) ==
      if DropLeadingEmpty(ps) == [] then (if t == "" then [] else [t]) else DropLeadingEmpty(ps) + [t]
  {
    if |ps| == 0 {
      assert ps + [t] == [t];
      assert [t][1..] == [];
    } else {
      assert (ps + [t])[0] == ps[0];
      assert (ps + [t])[1..] == ps[1..] + [t];
      if ps[0] == "" {
        DropLeadingEmptySnoc(ps[1..], t);
      }
    }
  }

  lemma JoinNonEmpty(ps: seq<string>, sep: char)
    requires |ps| > 0 && ps[0] != ""
    ensures Join(ps, sep) != ""
  {
    if |ps| > 1 {
      assert Join(ps, sep)[0] == ps[0][0];
    }
  }

  /** The space rule of `JoinRaw` extends the joined list by one text. */
  lemma JoinTextStep(d: seq<string>, text: string)
    requires |d| > 0 ==> d[0] != ""
    ensures var joined := Join(d, ' ');
      (if joined == "" then text else joined + " " + text)
        == Join(if d == [] then (if text == "" then [] else [text]) else d + [text], ' ')
  {
    if d != [] {
      JoinNonEmpty(d, ' ');
      JoinSnoc(d, text, ' ');
      assert [' '] == " ";
    }
  }

  /** A `JoinRaw` call. */
  datatype JoinCall = JoinCall(text: string, values: seq<Value>)

  function ApplyJoins(s: State, js: seq<JoinCall>): State
  {
    if |js| == 0 then s else JoinRaw(ApplyJoins(s, js[..|js| - 1]), js[|js| - 1].text, js[|js| - 1].values)
  }

  function JoinTexts(js: seq<JoinCall>): (ts: seq<string>)
    ensures |ts| == |js|
    ensures forall i :: 0 <= i < |js| ==> ts[i] == js[i].text
  {
    seq(|js|, i requires 0 <= i < |js| => js[i].text)
  }

  lemma JoinTextsSnoc(first: string, js: seq<JoinCall>)
    requires |js| > 0
    ensures [first] + JoinTexts(js) == [first] + JoinTexts(js[..|js| - 1]) + [js[|js| - 1].text]
  {
    assert JoinTexts(js) == JoinTexts(js[..|js| - 1]) + [js[|js| - 1].text];
  }

  function JoinValues(js: seq<JoinCall>): seq<Value>
  {
    if |js| == 0 then [] else JoinValues(js[..|js| - 1]) + js[|js| - 1].values
  }

  /** One more `JoinRaw` call extends the list of joined texts by its own. */
  lemma JoinRawStep(s: State, t: State, ps: seq<string>, j: JoinCall)
    requires t == s.(join := t.join, joinParams := t.joinParams)
    requires t.join == Join(DropLeadingEmpty(ps), ' ')
    ensures var r := JoinRaw(t, j.text, j.values);
      && r == s.(join := r.join, joinParams := r.joinParams)
      && r.join == Join(DropLeadingEmpty(ps + [j.text]), ' ')
      && r.joinParams == t.joinParams + j.values
  {
    DropLeadingEmptySnoc(ps, j.text);
    JoinTextStep(DropLeadingEmpty(ps), j.text);
  }

  /**
   Any chain of `JoinRaw` calls leaves every other clause alone and renders
   all the non-leading-empty texts separated by single spaces, appending every
   value in order.
   */
  lemma {:induction false} JoinAccumulation(s: State, js: seq<JoinCall>)
    ensures var r := ApplyJoins(s, js);
      && r == s.(join := r.join, joinParams := r.joinParams)
      && r.join == Join(DropLeadingEmpty([s.join] + JoinTexts(js)), ' ')
      && r.joinParams == s.joinParams + JoinValues(js)
  {
    if |js| == 0 {
      assert [s.join] + JoinTexts(js) == [s.join];
      assert [s.join][1..] == [];
    } else {
      var init, j := js[..|js| - 1], js[|js| - 1];
      JoinAccumulation(s, init);
      var t := ApplyJoins(s, init);
      JoinTextsSnoc(s.join, js);
      JoinRawStep(s, t, [s.join] + JoinTexts(init), j);
      assert ApplyJoins(s, js) == JoinRaw(t, j.text, j.values);
      assert JoinValues(js) == JoinValues(init) + j.values;
    }
  }
}

=== FILE: findings.dfy ===
/**
 Places where the builder, as written, breaks the rule that the rendered
 placeholders and the assembled parameters correspond one to one: the
 composers that replace their fragment but append to their parameters, and
 the raw HAVING composers that bind their value list as one packed value.
 Each has a concrete input exhibiting the mismatch, and a corrected composer
 that keeps the correspondence. A script of calls run through the corrected
 composers renders every statement with as many placeholders as parameters.
 */
module Findings {
  import opened Text
  import opened Builder
  import Clauses
  import opened Render

  /**
   A second `Limit` renders the same statement as the first alone, but its two
   values are appended behind the first call's: `Table("t").Limit(0, 10).Limit(10, 10)`
   renders `SELECT * FROM t LIMIT ? OFFSET ?` with parameters `[0, 10, 10, 10]`.
   */
  lemma LimitTwiceOverbinds(s: State, offset: Value, num: Value, offset2: Value, num2: Value)
    ensures var once := Limit(s, offset, num);
      var twice := Limit(once, offset2, num2);
      && GetQuerySql(twice) == GetQuerySql(once)
      && GetQueryParams(twice) == GetQueryParams(once) + [offset2, num2]
  {
    var once := Limit(s, offset, num);
    var twice := Limit(once, offset2, num2);
    assert twice == once.(limitParams := once.limitParams + [offset2, num2]);
    assert QueryTail(twice) == QueryTail(once);
  }

  /** On any aligned state with a table, two `Limit` calls bind two more values than there are placeholders. */
  lemma LimitTwiceMisaligns(s: State, offset: Value, num: Value, offset2: Value, num2: Value)
    requires Aligned(s) && s.table != "" && s.limit == ""
    ensures var t := Limit(Limit(s, offset, num), offset2, num2);
      |GetQueryParams(t)| == Placeholders(GetQuerySql(t).sql) + 2
  {
    var t := Limit(Limit(s, offset, num), offset2, num2);
    QueryCount(t);
  }

  /**
   A second `Insert` renders only its own fields, but the first call's values
   stay in front of its own: `Table("t").Insert(["a"], 1).Insert(["a"], 2)`
   renders one placeholder with parameters `[1, 2]`.
   */
  lemma InsertTwiceOverbinds(s: State, f1: seq<string>, v1: seq<Value>, f2: seq<string>, v2: seq<Value>)
    ensures var twice := Insert(Insert(s, f1, v1), f2, v2);
      && GetInsertSql(twice) == GetInsertSql(Insert(s, f2, v2))
      && GetInsertParams(twice) == s.insertParams + v1 + v2
  {
    assert Insert(Insert(s, f1, v1), f2, v2) == Insert(s, f2, v2).(insertParams := s.insertParams + v1 + v2);
  }

  /** On any aligned state with a table, the first call's values are left over behind the second call's placeholders. */
  lemma InsertTwiceMisaligns(s: State, f1: seq<string>, v1: seq<Value>, f2: seq<string>, v2: seq<Value>)
    requires Aligned(s) && s.table != "" && s.insert == ""
    requires NoPlaceholders(f2) && |v2| == |f2|
    ensures var t := Insert(Insert(s, f1, v1), f2, v2);
      |GetInsertParams(t)| == Placeholders(GetInsertSql(t).sql) + |v1|
  {
    SumCountZero(f2);
  }

  /**
   A second `Update` renders only its own assignments, but the first call's
   values stay in front of its own: `Table("t").Update(["n"], "x").Update(["n"], "y")`
   renders one placeholder with parameters `["x", "y"]`.
   */
  lemma UpdateTwiceOverbinds(s: State, f1: seq<string>, v1: seq<Value>, f2: seq<string>, v2: seq<Value>)
    ensures var twice := Update(Update(s, f1, v1), f2, v2);
      && GetUpdateSql(twice) == GetUpdateSql(Update(s, f2, v2))
      && GetUpdateParams(twice) == s.updateParams + v1 + v2 + s.whereParams
  {
    assert Update(Update(s, f1, v1), f2, v2) == Update(s, f2, v2).(updateParams := s.updateParams + v1 + v2);
  }

  /** On any aligned state with a table, the first call's values are left over behind the second call's placeholders. */
  lemma UpdateTwiceMisaligns(s: State, f1: seq<string>, v1: seq<Value>, f2: seq<string>, v2: seq<Value>)
    requires Aligned(s) && s.table != "" && s.update == ""
    requires NoPlaceholders(f2) && |v2| == |f2|
    ensures var t := Update(Update(s, f1, v1), f2, v2);
      GetUpdateSql(t).Ok? ==> |GetUpdateParams(t)| == Placeholders(GetUpdateSql(t).sql) + |v1|
  {
    SumCountZero(f2);
  }

  /**
   A raw HAVING call binds its whole value list as one parameter:
   `Table("t").GroupBy("a").HavingRawOr("COUNT(a) > ? AND COUNT(b) > ?", 8, 9)`
   has two placeholders but the single parameter `[8, 9]`.
   */
  lemma HavingRawPacksValues(s: State, op: Conj, text: string, values: seq<Value>)
    ensures GetQueryParams(HavingRaw(s, op, text, values))
      == s.joinParams + s.whereParams + s.havingParams + [List(values)] + s.limitParams
  {
    var t := HavingRaw(s, op, text, values);
    assert t.havingParams == s.havingParams + [List(values)];
  }

  /**
   On any aligned state with a table, a raw HAVING call with one placeholder
   per value adds |values| placeholders but one parameter.
   */
  lemma HavingRawMisaligns(s: State, op: Conj, text: string, values: seq<Value>)
    requires Aligned(s) && s.table != "" && Placeholders(text) == |values|
    ensures var t := HavingRaw(s, op, text, values);
      Placeholders(GetQuerySql(t).sql) + 1 == |GetQueryParams(t)| + |values|
  {
    var t := HavingRaw(s, op, text, values);
    QueryCount(t);
  }

  /** `Limit` as intended: the fragment and its two parameters are both replaced. */
  function LimitOverwrite(s: State, offset: Value, num: Value): (r: State)
    ensures r == s.(limit := r.limit, limitParams := r.limitParams)
    ensures r.limit == "LIMIT ? OFFSET ?"
    ensures r.limitParams == [offset, num]
    ensures Aligned(s) ==> Aligned(r)
  {
    LimitPlaceholders();
    s.(limit := "LIMIT ?" + " OFFSET ?", limitParams := [offset, num])
  }

  /** `Insert` as intended: the values of an earlier call are dropped with its fields. */
  function InsertOverwrite(s: State, fields: seq<string>, values: seq<Value>): (r: State)
    ensures r == s.(insert := r.insert, insertParams := r.insertParams)
    ensures r.insert == Insert(s, fields, values).insert
    ensures r.insertParams == values
    ensures Aligned(s) && NoPlaceholders(fields) && |values| == |fields| ==> Aligned(r)
  {
    var t := Insert(s.(insert := "", insertParams := []), fields, values);
    assert t.insertParams == values;
    t
  }

  /** `Update` as intended: the values of an earlier call are dropped with its fields. */
  function UpdateOverwrite(s: State, fields: seq<string>, values: seq<Value>): (r: State)
    ensures r == s.(update := r.update, updateParams := r.updateParams)
    ensures r.update == Update(s, fields, values).update
    ensures r.updateParams == values
    ensures Aligned(s) && NoPlaceholders(fields) && |values| == |fields| ==> Aligned(r)
  {
    var t := Update(s.(update := "", updateParams := []), fields, values);
    assert t.updateParams == values;
    t
  }

  /** `HavingRaw` as intended: the values are spread, one parameter per value. */
  function HavingRawSpread(s: State, op: Conj, text: string, values: seq<Value>): (r: State)
    ensures r == s.(having := r.having, havingParams := r.havingParams)
    ensures r.having == HavingRaw(s, op, text, values).having
    ensures r.havingParams == s.havingParams + values
    ensures Aligned(s) && Placeholders(text) == |values| ==> Aligned(r)
  {
    HavingRaw(s, op, text, values).(havingParams := s.havingParams + values)
  }

  /**
   Raw HAVING as intended: like every other HAVING call it is dropped without
   a group-by, and otherwise spreads its values.
   */
  function HavingRawGated(s: State, op: Conj, text: string, values: seq<Value>): (r: State)
    ensures s.groupBy == "" ==> r == s
    ensures s.groupBy != "" ==> r == HavingRawSpread(s, op, text, values)
    ensures Aligned(s) && Placeholders(text) == |values| ==> Aligned(r)
  {
    if s.groupBy == "" then s else HavingRawSpread(s, op, text, values)
  }

  /** A call of the fluent interface. */
  datatype Call =
    | SelectCall(cols: seq<string>)
    | TableCall(name: string)
    | InsertCall(fields: seq<string>, values: seq<Value>)
    | UpdateCall(fields: seq<string>, values: seq<Value>)
    | WhereCall(test: Clauses.Condition)
    | JoinRawCall(text: string, values: seq<Value>)
    | GroupByCall(field: string)
    | HavingCall(op: Conj, field: string, condition: string, value: Value)
    | HavingRawCall(op: Conj, text: string, values: seq<Value>)
    | OrderByCall(direction: string, fields: seq<string>)
    | LimitCall(offset: Value, num: Value)

  /** One call, through the corrected composers where the source's differ. */
  function Step(s: State, c: Call): State
  {
    match c
    case SelectCall(cols) => Select(s, cols)
    case TableCall(name) => Table(s, name)
    case InsertCall(fields, values) => InsertOverwrite(s, fields, values)
    case UpdateCall(fields, values) => UpdateOverwrite(s, fields, values)
    case WhereCall(cond) => Clauses.ApplyCondition(s, cond)
    case JoinRawCall(text, values) => JoinRaw(s, text, values)
    case GroupByCall(field) => GroupBy(s, field)
    case HavingCall(op, field, condition, value) => Having(s, op, field, condition, value)
    case HavingRawCall(op, text, values) => HavingRawGated(s, op, text, values)
    case OrderByCall(direction, fields) => OrderBy(s, direction, fields)
    case LimitCall(offset, num) => LimitOverwrite(s, offset, num)
  }

  function Run(s: State, calls: seq<Call>): State
    decreases |calls|
  {
    if |calls| == 0 then s else Run(Step(s, calls[0]), calls[1..])
  }

  /**
   What a caller must supply for the correspondence to hold: identifiers free
   of `?`, raw text with one `?` per value, and one value per listed field.
   */
  predicate WellFormed(c: Call)
  {
    match c
    case SelectCall(cols) => NoPlaceholders(cols)
    case TableCall(name) => Placeholders(name) == 0
    case InsertCall(fields, values) => NoPlaceholders(fields) && |values| == |fields|
    case UpdateCall(fields, values) => NoPlaceholders(fields) && |values| == |fields|
    case WhereCall(cond) => Clauses.Balanced(cond)
    case JoinRawCall(text, values) => Placeholders(text) == |values|
    case GroupByCall(field) => Placeholders(field) == 0
    case HavingCall(_, field, condition, _) => Placeholders(field) == 0 && Placeholders(condition) == 0
    case HavingRawCall(_, text, values) => Placeholders(text) == |values|
    case OrderByCall(direction, fields) => NoPlaceholders(fields) && Placeholders(direction) == 0
    case LimitCall(_, _) => true
  }

  lemma StepAligned(s: State, c: Call)
    requires Aligned(s) && WellFormed(c)
    ensures Aligned(Step(s, c))
  {
    match c
    case OrderByCall(direction, fields) => SumCountZero(fields);
    case _ =>
  }

  /** Well-formed calls through the corrected composers never break the placeholder discipline. */
  lemma {:induction false} RunAligned(s: State, calls: seq<Call>)
    requires Aligned(s)
    requires forall i :: 0 <= i < |calls| ==> WellFormed(calls[i])
    ensures Aligned(Run(s, calls))
    decreases |calls|
  {
    if |calls| > 0 {
      StepAligned(s, calls[0]);
      assert forall i :: 0 <= i < |calls[1..]| ==> WellFormed(calls[1..][i]) by {
        forall i | 0 <= i < |calls[1..]| ensures WellFormed(calls[1..][i]) {
          assert calls[1..][i] == calls[i + 1];
        }
      }
      RunAligned(Step(s, calls[0]), calls[1..]);
    }
  }

  /**
   Starting from a fresh builder, any well-formed script renders each of the
   four statements with exactly as many placeholders as parameters.
   */
  lemma ScriptRendersAligned(calls: seq<Call>)
    requires forall i :: 0 <= i < |calls| ==> WellFormed(calls[i])
    ensures var s := Run(NewBuilder(), calls);
      && (GetQuerySql(s).Ok? ==> Placeholders(GetQuerySql(s).sql) == |GetQueryParams(s)|)
      && (GetInsertSql(s).Ok? ==> Placeholders(GetInsertSql(s).sql) == |GetInsertParams(s)|)
      && (GetUpdateSql(s).Ok? ==> Placeholders(GetUpdateSql(s).sql) == |GetUpdateParams(s)|)
      && (GetDeleteSql(s).Ok? ==> Placeholders(GetDeleteSql(s).sql) == |GetDeleteParams(s)|)
  {
    var s := Run(NewBuilder(), calls);
    RunAligned(NewBuilder(), calls);
    QueryPlaceholders(s);
  }
}

=== FILE: render.dfy ===
/**
 The four terminal renderers and their parameter assemblers. Each renderer
 reads the statement state and either fails with one of three errors or
 concatenates the fragments in a fixed order; each assembler concatenates the
 matching parameter lists in the same order.
 */
module Render {
  import opened Text
  import opened Builder

  /** The three error values a renderer can return. */
  datatype BuildError = TableEmpty | InsertStatementEmpty | UpdateStatementEmpty

  function Message(e: BuildError): string
  {
    match e
    case TableEmpty => "table empty"
    case InsertStatementEmpty => "insert statement empty"
    case UpdateStatementEmpty => "update statement empty"
  }

  /** A rendered statement, or the error that stopped rendering (the source pairs it with ""). */
  datatype SqlResult = Ok(sql: string) | Err(error: BuildError)

  /** An optional clause of a SELECT: a space and the fragment, or nothing when it is empty. */
  function Section(frag: string): (r: string)
    ensures frag == "" ==> r == ""
    ensures frag != "" ==> r == " " + frag
  {
    if frag == "" then "" else " " + frag
  }

  lemma SectionPlaceholders(frag: string)
    ensures Placeholders(Section(frag)) == Placeholders(frag)
  {
    if frag != "" {
      PlainConcat(" ", frag);
    }
  }

  /** The select list, or `*` when none was set. */
  function SelectList(s: State): string
  {
    if s.select != "" then s.select else "*"
  }

  function QueryHead(s: State): string
  {
    "SELECT " + SelectList(s) + " FROM " + s.table
  }

  lemma QueryHeadPlaceholders(s: State)
    ensures Placeholders(QueryHead(s)) == Placeholders(s.select) + Placeholders(s.table)
  {
    CountAbsent("*", '?');
    PlainConcat("SELECT ", SelectList(s));
    PlainConcat(" FROM ", "SELECT " + SelectList(s));
    CountConcat("SELECT " + SelectList(s) + " FROM ", s.table, '?');
  }

  function GetQuerySql(s: State): (r: SqlResult)
    ensures r.Err? <==> s.table == ""
    ensures r.Err? ==> r.error == TableEmpty
    ensures r.Ok? ==> QueryHead(s) <= r.sql
  {
    if s.table == "" then Err(TableEmpty) else Ok(QueryHead(s) + QueryTail(s))
  }

  /** The optional clauses, each present only when its fragment is non-empty. */
  function QueryTail(s: State): string
  {
    Section(s.join) + Section(s.where) + Section(s.groupBy)
      + Section(s.having) + Section(s.orderBy) + Section(s.limit)
  }

  function GetQueryParams(s: State): (r: seq<Value>)
    ensures var a, b, c := |s.joinParams|, |s.joinParams| + |s.whereParams|,
                           |s.joinParams| + |s.whereParams| + |s.havingParams|;
      && |r| == c + |s.limitParams|
      && r[..a] == s.joinParams
      && r[a..b] == s.whereParams
      && r[b..c] == s.havingParams
      && r[c..] == s.limitParams
  {
    s.joinParams + s.whereParams + s.havingParams + s.limitParams
  }

  function GetInsertSql(s: State): (r: SqlResult)
    ensures r == Err(TableEmpty) <==> s.table == ""
    ensures r == Err(InsertStatementEmpty) <==> s.table != "" && s.insert == ""
    ensures r.Ok? ==> r.sql == "INSERT INTO " + s.table + " " + s.insert
    ensures r.Ok? ==> Placeholders(r.sql) == Placeholders(s.table) + Placeholders(s.insert)
    ensures r.Ok? <==> s.table != "" && s.insert != ""
  {
    if s.table == "" then Err(TableEmpty)
    else if s.insert == "" then Err(InsertStatementEmpty)
    else
      PlainConcat("INSERT INTO ", s.table);
      PlainConcat(" ", "INSERT INTO " + s.table);
      CountConcat("INSERT INTO " + s.table + " ", s.insert, '?');
      Ok("INSERT INTO " + s.table + " " + s.insert)
  }

  /** INSERT binds the insert parameters and nothing else. */
  function GetInsertParams(s: State): (r: seq<Value>)
    ensures r == s.insertParams
    ensures Aligned(s) && GetInsertSql(s).Ok? ==> Placeholders(GetInsertSql(s).sql) == |r|
  {
    s.insertParams
  }

  function GetUpdateSql(s: State): (r: SqlResult)
    ensures r == Err(TableEmpty) <==> s.table == ""
    ensures r == Err(UpdateStatementEmpty) <==> s.table != "" && s.update == ""
    ensures r.Ok? ==> r.sql == "UPDATE " + s.table + " SET " + s.update + " " + s.where
    ensures r.Ok? && s.where == "" ==> r.sql == "UPDATE " + s.table + " SET " + s.update + " "
    ensures r.Ok? ==> Placeholders(r.sql) == Placeholders(s.table) + Placeholders(s.update) + Placeholders(s.where)
    ensures r.Ok? <==> s.table != "" && s.update != ""
  {
    if s.table == "" then Err(TableEmpty)
    else if s.update == "" then Err(UpdateStatementEmpty)
    else
      // The trailing space is written whether or not a where fragment follows.
      var head := "UPDATE " + s.table + " SET " + s.update + " ";
      PlainConcat("UPDATE ", s.table);
      PlainConcat(" SET ", "UPDATE " + s.table);
      CountConcat("UPDATE " + s.table + " SET ", s.update, '?');
      PlainConcat(" ", "UPDATE " + s.table + " SET " + s.update);
      CountConcat(head, s.where, '?');
      assert s.where == "" ==> head + s.where == head;
      Ok(head + s.where)
  }

  function GetUpdateParams(s: State): (r: seq<Value>)
    ensures |r| == |s.updateParams| + |s.whereParams|
    ensures r[..|s.updateParams|] == s.updateParams
    ensures r[|s.updateParams|..] == s.whereParams
    ensures Aligned(s) && GetUpdateSql(s).Ok? ==> Placeholders(GetUpdateSql(s).sql) == |r|
  {
    s.updateParams + s.whereParams
  }

  function GetDeleteSql(s: State): (r: SqlResult)
    ensures r.Err? <==> s.table == ""
    ensures r.Err? ==> r.error == TableEmpty
    ensures r.Ok? ==> r.sql == "DELETE FROM " + s.table + " " + s.where
    ensures r.Ok? ==> Placeholders(r.sql) == Placeholders(s.table) + Placeholders(s.where)
  {
    if s.table == "" then Err(TableEmpty)
    else
      PlainConcat("DELETE FROM ", s.table);
      PlainConcat(" ", "DELETE FROM " + s.table);
      CountConcat("DELETE FROM " + s.table + " ", s.where, '?');
      Ok("DELETE FROM " + s.table + " " + s.where)
  }

  /** DELETE binds the where parameters and nothing else. */
  function GetDeleteParams(s: State): (r: seq<Value>)
    ensures r == s.whereParams
    ensures Aligned(s) && GetDeleteSql(s).Ok? ==> Placeholders(GetDeleteSql(s).sql) == |r|
  {
    s.whereParams
  }

  /** One clause of a rendered SELECT together with the parameters it binds. */
  datatype Segment = Segment(text: string, params: seq<Value>)

  /** The optional SELECT clauses in the order they are rendered. */
  function QuerySegments(s: State): seq<Segment>
  {
    [ Segment(s.join, s.joinParams),
      Segment(s.where, s.whereParams),
      Segment(s.groupBy, []),
      Segment(s.having, s.havingParams),
      Segment(s.orderBy, []),
      Segment(s.limit, s.limitParams) ]
  }

  /** The rendered text of a list of segments, each one a `Section`. */
  function Sections(segs: seq<Segment>): string
  {
    if |segs| == 0 then "" else Sections(segs[..|segs| - 1]) + Section(segs[|segs| - 1].text)
  }

  /** The parameters of a list of segments, in segment order. */
  function Bindings(segs: seq<Segment>): seq<Value>
  {
    if |segs| == 0 then [] else Bindings(segs[..|segs| - 1]) + segs[|segs| - 1].params
  }

  predicate SegmentAligned(g: Segment)
  {
    Placeholders(g.text) == |g.params|
  }

  lemma SectionsSnoc(segs: seq<Segment>, g: Segment)
    ensures Sections(segs + [g]) == Sections(segs) + Section(g.text)
  {
    assert (segs + [g])[..|segs|] == segs;
  }

  lemma BindingsSnoc(segs: seq<Segment>, g: Segment)
    ensures Bindings(segs + [g]) == Bindings(segs) + g.params
  {
    assert (segs + [g])[..|segs|] == segs;
  }

  lemma QuerySectionsUnfold(s: State)
    ensures Sections(QuerySegments(s)) == QueryTail(s)
  {
    var a, b, c := Segment(s.join, s.joinParams), Segment(s.where, s.whereParams), Segment(s.groupBy, []);
    var d, e, f := Segment(s.having, s.havingParams), Segment(s.orderBy, []), Segment(s.limit, s.limitParams);
    var j, w, gb, h, ob, l := Section(s.join), Section(s.where), Section(s.groupBy),
      Section(s.having), Section(s.orderBy), Section(s.limit);
    assert Sections([a]) == j by {
      SectionsSnoc([], a);
      assert [] + [a] == [a];
      assert "" + j == j;
    }
    assert Sections([a, b]) == j + w by {
      SectionsSnoc([a], b);
      assert [a] + [b] == [a, b];
    }
    assert Sections([a, b, c]) == j + w + gb by {
      SectionsSnoc([a, b], c);
      assert [a, b] + [c] == [a, b, c];
    }
    assert Sections([a, b, c, d]) == j + w + gb + h by {
      SectionsSnoc([a, b, c], d);
      assert [a, b, c] + [d] == [a, b, c, d];
    }
    assert Sections([a, b, c, d, e]) == j + w + gb + h + ob by {
      SectionsSnoc([a, b, c, d], e);
      assert [a, b, c, d] + [e] == [a, b, c, d, e];
    }
    assert Sections([a, b, c, d, e, f]) == j + w + gb + h + ob + l by {
      SectionsSnoc([a, b, c, d, e], f);
      assert [a, b, c, d, e] + [f] == [a, b, c, d, e, f];
    }
  }

  lemma QueryBindingsUnfold(s: State)
    ensures Bindings(QuerySegments(s)) == s.joinParams + s.whereParams + s.havingParams + s.limitParams
  {
    var a, b, c := Segment(s.join, s.joinParams), Segment(s.where, s.whereParams), Segment(s.groupBy, []);
    var d, e, f := Segment(s.having, s.havingParams), Segment(s.orderBy, []), Segment(s.limit, s.limitParams);
    var jp, wp, hp, lp := s.joinParams, s.whereParams, s.havingParams, s.limitParams;
    assert Bindings([a]) == jp by {
      BindingsSnoc([], a);
      assert [] + [a] == [a];
      assert [] + jp == jp;
    }
    assert Bindings([a, b]) == jp + wp by {
      BindingsSnoc([a], b);
      assert [a] + [b] == [a, b];
    }
    assert Bindings([a, b, c]) == jp + wp by {
      BindingsSnoc([a, b], c);
      assert [a, b] + [c] == [a, b, c];
      assert jp + wp + [] == jp + wp;
    }
    assert Bindings([a, b, c, d]) == jp + wp + hp by {
      BindingsSnoc([a, b, c], d);
      assert [a, b, c] + [d] == [a, b, c, d];
    }
    assert Bindings([a, b, c, d, e]) == jp + wp + hp by {
      BindingsSnoc([a, b, c, d], e);
      assert [a, b, c, d] + [e] == [a, b, c, d, e];
      assert jp + wp + hp + [] == jp + wp + hp;
    }
    assert Bindings([a, b, c, d, e, f]) == jp + wp + hp + lp by {
      BindingsSnoc([a, b, c, d, e], f);
      assert [a, b, c, d, e] + [f] == [a, b, c, d, e, f];
    }
  }

  /**
   The SELECT text and its parameter list are both read off the one clause
   order join, where, group-by, having, order-by, limit.
   */
  lemma QueryLayout(s: State)
    requires s.table != ""
    ensures GetQuerySql(s) == Ok(QueryHead(s) + Sections(QuerySegments(s)))
    ensures GetQueryParams(s) == Bindings(QuerySegments(s))
  {
    QuerySectionsUnfold(s);
    QueryBindingsUnfold(s);
  }

  /** Segments whose texts carry as many placeholders as they bind render to a text that carries as many as all of them bind. */
  lemma {:induction false} SegmentsAligned(segs: seq<Segment>)
    requires forall i :: 0 <= i < |segs| ==> SegmentAligned(segs[i])
    ensures Placeholders(Sections(segs)) == |Bindings(segs)|
  {
    if |segs| > 0 {
      var init := segs[..|segs| - 1];
      assert forall i :: 0 <= i < |init| ==> SegmentAligned(init[i]) by {
        forall i | 0 <= i < |init| ensures SegmentAligned(init[i]) {
          assert init[i] == segs[i];
        }
      }
      SegmentsAligned(init);
      assert SegmentAligned(segs[|segs| - 1]);
      SectionPlaceholders(segs[|segs| - 1].text);
      CountConcat(Sections(init), Section(segs[|segs| - 1].text), '?');
    }
  }

  /** The placeholders of a rendered SELECT are exactly those of its fragments. */
  lemma QueryCount(s: State)
    requires s.table != ""
    ensures Placeholders(GetQuerySql(s).sql) == Placeholders(s.select) + Placeholders(s.table)
      + Placeholders(s.join) + Placeholders(s.where) + Placeholders(s.groupBy)
      + Placeholders(s.having) + Placeholders(s.orderBy) + Placeholders(s.limit)
  {
    var j, w, gb, h, ob, l := Section(s.join), Section(s.where), Section(s.groupBy),
      Section(s.having), Section(s.orderBy), Section(s.limit);
    SectionPlaceholders(s.join);
    SectionPlaceholders(s.where);
    SectionPlaceholders(s.groupBy);
    SectionPlaceholders(s.having);
    SectionPlaceholders(s.orderBy);
    SectionPlaceholders(s.limit);
    CountConcat3(j, w, gb, '?');
    CountConcat3(j + w + gb, h, ob, '?');
    CountConcat(j + w + gb + h + ob, l, '?');
    QueryHeadPlaceholders(s);
    CountConcat(QueryHead(s), QueryTail(s), '?');
  }

  /**
   With the placeholder discipline in force, the rendered SELECT has exactly as
   many placeholders as the parameter list has values, and, for every clause,
   the placeholders before it match the values before it, so the k-th
   placeholder is bound by the k-th value of the same clause.
   */
  lemma QueryPlaceholders(s: State)
    requires Aligned(s)
    ensures GetQuerySql(s).Ok? ==> Placeholders(GetQuerySql(s).sql) == |GetQueryParams(s)|
    ensures forall k :: 0 <= k <= 6 ==>
      Placeholders(Sections(QuerySegments(s)[..k])) == |Bindings(QuerySegments(s)[..k])|
  {
    var g := QuerySegments(s);
    assert Placeholders(s.groupBy) == |g[2].params| && Placeholders(s.orderBy) == |g[4].params|;
    assert forall i :: 0 <= i < |g| ==> SegmentAligned(g[i]);
    forall k | 0 <= k <= 6
      ensures Placeholders(Sections(g[..k])) == |Bindings(g[..k])|
    {
      assert forall i :: 0 <= i < k ==> g[..k][i] == g[i];
      SegmentsAligned(g[..k]);
    }
    if s.table != "" {
      QueryLayout(s);
      QueryHeadPlaceholders(s);
      SegmentsAligned(g);
      CountConcat(QueryHead(s), Sections(g), '?');
    }
  }
}

=== FILE: scenarios.dfy ===
/**
 Worked examples of the fluent interface: each composes a builder from a
 fresh one and states the exact statement and parameters it renders.
 */
module Scenarios {
  import Text
  import opened Builder
  import opened Render

  /** A query with every clause but the join set renders them space-separated in fixed order. */
  lemma QueryWithoutJoin(s: State)
    requires s.table != "" && s.select != "" && s.join == ""
    requires s.where != "" && s.groupBy != "" && s.having != "" && s.orderBy != "" && s.limit != ""
    ensures GetQuerySql(s) == Ok("SELECT " + s.select + " FROM " + s.table + " " + s.where + " " + s.groupBy
                                 + " " + s.having + " " + s.orderBy + " " + s.limit)
  {
  }

  /**
   A grouped, filtered, ordered and paged query, such as
   `Table("t").Select("a", "b").Where("a", "=", 1).GroupBy("a").Having("COUNT(a)", ">", 2).OrderBy("DESC", "a").Limit(0, 5)`:
   every clause in its fixed place, and the parameters in where, having, limit order.
   */
  lemma FullQuery(t: string, c1: string, c2: string, f: string, cond: string, v: Value,
                  g: string, hf: string, hc: string, hv: Value, dir: string, o: string, off: Value, num: Value)
    requires t != ""
    ensures var s := Limit(OrderBy(Having(GroupBy(Where(Select(Table(NewBuilder(), t), [c1, c2]),
                             And, f, cond, v), g), And, hf, hc, hv), dir, [o]), off, num);
      && GetQuerySql(s) == Ok("SELECT " + (c1 + "," + c2) + " FROM " + t + " " + ("WHERE " + (f + " " + cond + " ?"))
                              + " " + ("GROUP BY " + g) + " " + ("HAVING " + (hf + " " + hc + " ?"))
                              + " " + ("ORDER BY " + o + " " + dir) + " " + "LIMIT ? OFFSET ?")
      && GetQueryParams(s) == [v, hv, off, num]
  {
    var s := Limit(OrderBy(Having(GroupBy(Where(Select(Table(NewBuilder(), t), [c1, c2]),
               And, f, cond, v), g), And, hf, hc, hv), dir, [o]), off, num);
    FullQueryState(t, c1, c2, f, cond, v, g, hf, hc, hv, dir, o, off, num);
    FullQueryRender(s, t, c1, c2, f, cond, v, g, hf, hc, hv, dir, o, off, num);
  }

  lemma FullQueryRender(s: State, t: string, c1: string, c2: string, f: string, cond: string, v: Value,
                        g: string, hf: string, hc: string, hv: Value, dir: string, o: string, off: Value, num: Value)
    requires t != ""
    requires s == State(c1 + "," + c2, "", "", "LIMIT ? OFFSET ?", "ORDER BY " + o + " " + dir, "GROUP BY " + g, t, "",
                        "WHERE " + (f + " " + cond + " ?"), "HAVING " + (hf + " " + hc + " ?"),
                        [], [], [v], [], [hv], [off, num])
    ensures GetQuerySql(s) == Ok("SELECT " + (c1 + "," + c2) + " FROM " + t + " " + ("WHERE " + (f + " " + cond + " ?"))
                                 + " " + ("GROUP BY " + g) + " " + ("HAVING " + (hf + " " + hc + " ?"))
                                 + " " + ("ORDER BY " + o + " " + dir) + " " + "LIMIT ? OFFSET ?")
    ensures GetQueryParams(s) == [v, hv, off, num]
  {
    assert |s.select| > |c1|;
    QueryWithoutJoin(s);
  }

  /** The state the calls of `FullQuery` build, fragment by fragment. */
  lemma FullQueryState(t: string, c1: string, c2: string, f: string, cond: string, v: Value,
                       g: string, hf: string, hc: string, hv: Value, dir: string, o: string, off: Value, num: Value)
    ensures Limit(OrderBy(Having(GroupBy(Where(Select(Table(NewBuilder(), t), [c1, c2]),
              And, f, cond, v), g), And, hf, hc, hv), dir, [o]), off, num)
         == State(c1 + "," + c2, "", "", "LIMIT ? OFFSET ?", "ORDER BY " + o + " " + dir, "GROUP BY " + g, t, "",
                  "WHERE " + (f + " " + cond + " ?"), "HAVING " + (hf + " " + hc + " ?"),
                  [], [], [v], [], [hv], [off, num])
  {
    var s1 := Select(Table(NewBuilder(), t), [c1, c2]);
    assert [c1, c2][1..] == [c2];
    assert Text.Join([c2], ',') == c2;
    assert s1.select == c1 + "," + c2;
    var s3 := GroupBy(Where(s1, And, f, cond, v), g);
    assert s3 == s1.(where := "WHERE " + (f + " " + cond + " ?"), whereParams := [v], groupBy := "GROUP BY " + g);
    var s5 := OrderBy(Having(s3, And, hf, hc, hv), dir, [o]);
    assert s5 == s3.(having := "HAVING " + (hf + " " + hc + " ?"), havingParams := [hv], orderBy := "ORDER BY " + o + " " + dir);
  }

  /** `Update` without a `Where` keeps the trailing space the renderer always writes. */
  lemma UpdateWithoutWhere(t: string, n: string, x: Value)
    requires t != ""
    ensures var s := Update(Table(NewBuilder(), t), [n], [x]);
      && GetUpdateSql(s) == Ok("UPDATE " + t + " SET " + (n + " = ?") + " ")
      && GetUpdateParams(s) == [x]
  {
    var s := Update(Table(NewBuilder(), t), [n], [x]);
    assert s.update == n + " = ?";
  }

  /** `Update` then `Where`: the assignment values come before the condition values. */
  lemma UpdateWithWhere(t: string, n: string, x: Value, f: string, v: Value)
    requires t != ""
    ensures var s := Where(Update(Table(NewBuilder(), t), [n], [x]), And, f, "=", v);
      && GetUpdateSql(s) == Ok("UPDATE " + t + " SET " + (n + " = ?") + " " + ("WHERE " + (f + " = ?")))
      && GetUpdateParams(s) == [x, v]
  {
    var s1 := Update(Table(NewBuilder(), t), [n], [x]);
    var s := Where(s1, And, f, "=", v);
    assert s1.update == n + " = ?";
    assert s.where == "WHERE " + (f + " = ?");
  }

  /** `Delete` renders the where fragment after one space, and binds only its values. */
  lemma DeleteWithWhere(t: string, f: string, v: Value)
    requires t != ""
    ensures var s := Where(Table(NewBuilder(), t), And, f, "=", v);
      && GetDeleteSql(s) == Ok("DELETE FROM " + t + " " + ("WHERE " + (f + " = ?")))
      && GetDeleteParams(s) == [v]
  {
    var s := Where(Table(NewBuilder(), t), And, f, "=", v);
    assert s.where == "WHERE " + (f + " = ?");
  }

  /** `WhereIn` with three values writes three comma-separated placeholders and binds all three values. */
  lemma WhereInThree(t: string, f: string, a: Value, b: Value, c: Value)
    requires t != ""
    ensures var s := WhereIn(Table(NewBuilder(), t), And, In, f, [a, b, c]);
      && s.where == "WHERE " + (f + " IN (" + "?,?,?" + ")")
      && GetQueryParams(s) == [a, b, c]
  {
    assert Text.Copies(3, "?") == ["?", "?", "?"];
    assert Text.Join(["?", "?", "?"][1..], ',') == "?,?";
    assert Text.PlaceholderList(3) == "?,?,?";
  }

  /** `Insert` lists the fields and one placeholder per field. */
  lemma InsertTwoFields(t: string, f1: string, f2: string, v1: Value, v2: Value)
    requires t != ""
    ensures var s := Insert(Table(NewBuilder(), t), [f1, f2], [v1, v2]);
      && GetInsertSql(s) == Ok("INSERT INTO " + t + " " + ("(" + (f1 + "," + f2) + ") VALUES (" + "?,?" + ")"))
      && GetInsertParams(s) == [v1, v2]
  {
    assert [f1, f2][1..] == [f2];
    assert Text.Join([f2], ',') == f2;
    assert Text.Copies(2, "?") == ["?", "?"];
    assert Text.Join(["?", "?"][1..], ',') == "?";
    assert Text.PlaceholderList(2) == "?,?";
  }

  /** `Insert` with no fields still yields a fragment, so rendering succeeds with empty lists. */
  lemma InsertNoFields(t: string)
    requires t != ""
    ensures GetInsertSql(Insert(Table(NewBuilder(), t), [], [])) == Ok("INSERT INTO " + t + " " + "() VALUES ()")
  {
    var s := Insert(Table(NewBuilder(), t), [], []);
    assert s.insert == "() VALUES ()" by {
      assert Text.PlaceholderList(0) == "" && Text.Join([], ',') == "";
      assert InsertFragment([]) == "(" + "" + ") VALUES (" + "" + ")";
    }
  }

  /** Without `Insert` or `Update` the corresponding renderer fails after the table check. */
  lemma MissingStatements(t: string)
    requires t != ""
    ensures GetInsertSql(Table(NewBuilder(), t)) == Err(InsertStatementEmpty)
    ensures GetUpdateSql(Table(NewBuilder(), t)) == Err(UpdateStatementEmpty)
    ensures GetQuerySql(NewBuilder()) == Err(TableEmpty)
  {
  }

  /** `Having` before any `GroupBy` is dropped: neither text nor value reaches the query. */
  lemma HavingWithoutGroupBy(t: string, f: string, cond: string, v: Value)
    requires t != ""
    ensures var s := Having(Table(NewBuilder(), t), And, f, cond, v);
      && GetQuerySql(s) == Ok("SELECT * FROM " + t)
      && GetQueryParams(s) == []
  {
    var s := Having(Table(NewBuilder(), t), And, f, cond, v);
    assert s == State("", "", "", "", "", "", t, "", "", "", [], [], [], [], [], []);
    TableOnlyRender(s, t);
  }

  lemma TableOnlyRender(s: State, t: string)
    requires t != ""
    requires s == State("", "", "", "", "", "", t, "", "", "", [], [], [], [], [], [])
    ensures GetQuerySql(s) == Ok("SELECT * FROM " + t)
    ensures GetQueryParams(s) == []
  {
    assert QueryHead(s) == "SELECT * FROM " + t by {
      assert "SELECT " + "*" + " FROM " == "SELECT * FROM ";
    }
    assert QueryTail(s) == "";
    assert QueryHead(s) + "" == QueryHead(s);
  }

  /** Join text comes before the where fragment, and so do its values. */
  lemma JoinBeforeWhere(t: string, j: string, jv: Value, f: string, v: Value)
    requires t != "" && j != ""
    ensures var s := JoinRaw(Where(Table(NewBuilder(), t), And, f, "=", v), j, [jv]);
      && GetQuerySql(s) == Ok("SELECT * FROM " + t + " " + j + " " + ("WHERE " + (f + " = ?")))
      && GetQueryParams(s) == [jv, v]
  {
    var s := JoinRaw(Where(Table(NewBuilder(), t), And, f, "=", v), j, [jv]);
    assert s == State("", "", "", "", "", "", t, j, "WHERE " + (f + " = ?"), "", [], [], [v], [jv], [], []);
    JoinWhereRender(s, t, j, jv, f, v);
  }

  lemma JoinWhereRender(s: State, t: string, j: string, jv: Value, f: string, v: Value)
    requires t != "" && j != ""
    requires s == State("", "", "", "", "", "", t, j, "WHERE " + (f + " = ?"), "", [], [], [v], [jv], [], [])
    ensures GetQuerySql(s) == Ok("SELECT * FROM " + t + " " + j + " " + ("WHERE " + (f + " = ?")))
    ensures GetQueryParams(s) == [jv, v]
  {
    var head, w := "SELECT * FROM " + t, "WHERE " + (f + " = ?");
    assert QueryHead(s) == head by {
      assert "SELECT " + "*" + " FROM " == "SELECT * FROM ";
    }
    assert QueryTail(s) == (" " + j) + (" " + w) by {
      assert Section(j) == " " + j && Section(w) == " " + w;
      assert Section("") == "";
      assert (" " + j) + (" " + w) + "" + "" + "" + "" == (" " + j) + (" " + w);
    }
    assert head + ((" " + j) + (" " + w)) == head + " " + j + " " + w;
  }
}

=== FILE: text.dfy ===
/**
 Plain string helpers the builder is written in terms of: counting a character,
 the comma-joining loop every list-rendering composer uses, splitting a string
 back into its parts, and the `?,?,...` placeholder list.
 */
module Text {

  /** Number of occurrences of `c` in `s`. */
  function Count(s: string, c: char): (n: nat)
    ensures n <= |s|
  {
    if |s| == 0 then 0
    else (if s[0] == c then 1 else 0) + Count(s[1..], c)
  }

  /** Number of bind placeholders `?` in a SQL fragment. */
  function Placeholders(s: string): nat
  {
    Count(s, '?')
  }

  lemma {:induction false} CountConcat(a: string, b: string, c: char)
    ensures Count(a + b, c) == Count(a, c) + Count(b, c)
  {
    if |a| == 0 {
      assert a + b == b;
    } else {
      assert (a + b)[0] == a[0];
      assert (a + b)[1..] == a[1..] + b;
      CountConcat(a[1..], b, c);
    }
  }

  lemma {:induction false} CountAbsent(s: string, c: char)
    requires c !in s
    ensures Count(s, c) == 0
  {
    if |s| > 0 {
      assert c !in s[1..] by {
        forall i | 0 <= i < |s[1..]| ensures s[1..][i] != c {
          assert s[1..][i] == s[i + 1];
        }
      }
      CountAbsent(s[1..], c);
    }
  }

  /** Keyword text without placeholders adds none, on either side. */
  lemma PlainConcat(lit: string, x: string)
    requires '?' !in lit
    ensures Placeholders(lit + x) == Placeholders(x)
    ensures Placeholders(x + lit) == Placeholders(x)
  {
    CountAbsent(lit, '?');
    CountConcat(lit, x, '?');
    CountConcat(x, lit, '?');
  }

  /** Counting distributes over a three-way concatenation. */
  lemma CountConcat3(a: string, b: string, d: string, c: char)
    ensures Count(a + b + d, c) == Count(a, c) + Count(b, c) + Count(d, c)
  {
    CountConcat(a, b, c);
    CountConcat(a + b, d, c);
  }

  /**
   The loop shape shared by `Select`, `Insert`, `Update` and `OrderBy`: write
   each part, followed by `sep` unless it is the last one.
   */
  function Join(parts: seq<string>, sep: char): string
  {
    if |parts| == 0 then ""
    else if |parts| == 1 then parts[0]
    else parts[0] + [sep] + Join(parts[1..], sep)
  }

  /** Total count of `c` over all parts. */
  function SumCount(parts: seq<string>, c: char): nat
  {
    if |parts| == 0 then 0 else Count(parts[0], c) + SumCount(parts[1..], c)
  }

  /** True when no part holds a placeholder. */
  predicate NoPlaceholders(parts: seq<string>)
  {
    forall i :: 0 <= i < |parts| ==> '?' !in parts[i]
  }

  lemma {:induction false} SumCountZero(parts: seq<string>)
    requires NoPlaceholders(parts)
    ensures SumCount(parts, '?') == 0
  {
    if |parts| > 0 {
      assert NoPlaceholders(parts[1..]) by {
        forall i | 0 <= i < |parts[1..]| ensures '?' !in parts[1..][i] {
          assert parts[1..][i] == parts[i + 1];
        }
      }
      SumCountZero(parts[1..]);
      CountAbsent(parts[0], '?');
    }
  }

  /** Joining adds no occurrence of any character other than the separator. */
  lemma {:induction false} JoinCount(parts: seq<string>, sep: char, c: char)
    requires c != sep
    ensures Count(Join(parts, sep), c) == SumCount(parts, c)
  {
    if |parts| == 1 {
      assert SumCount(parts[1..], c) == 0;
    } else if |parts| > 1 {
      JoinCount(parts[1..], sep, c);
      CountConcat3(parts[0], [sep], Join(parts[1..], sep), c);
    }
  }

  /** A joined list of placeholder-free parts is placeholder-free. */
  lemma JoinNoPlaceholders(parts: seq<string>, sep: char)
    requires sep != '?'
    requires NoPlaceholders(parts)
    ensures Placeholders(Join(parts, sep)) == 0
  {
    JoinCount(parts, sep, '?');
    SumCountZero(parts);
  }

  /** Appending one part to a joined list adds one separator before it. */
  lemma {:induction false} JoinSnoc(parts: seq<string>, last: string, sep: char)
    ensures Join(parts + [last], sep) == if parts == [] then last else Join(parts, sep) + [sep] + last
  {
    if |parts| == 1 {
      assert (parts + [last])[1..] == [last];
    } else if |parts| > 1 {
      assert (parts + [last])[1..] == parts[1..] + [last];
      JoinSnoc(parts[1..], last, sep);
    }
  }

  /**
   Splits `s` at every `sep`: the inverse of `Join` for parts free of `sep`.
   There is always one more piece than separators.
   */
  function Split(s: string, sep: char): (r: seq<string>)
    ensures |r| == Count(s, sep) + 1
  {
    if |s| == 0 then [""]
    else
      var rest := Split(s[1..], sep);
      if s[0] == sep then [""] + rest else [[s[0]] + rest[0]] + rest[1..]
  }

  lemma {:induction false} SplitFree(p: string, tail: string, sep: char)
    requires sep !in p
    ensures Split(p + tail, sep) == [p + Split(tail, sep)[0]] + Split(tail, sep)[1..]
  {
    if |p| > 0 {
      assert (p + tail)[0] == p[0];
      assert (p + tail)[1..] == p[1..] + tail;
      SplitFree(p[1..], tail, sep);
      assert [p[0]] + (p[1..] + Split(tail, sep)[0]) == p + Split(tail, sep)[0];
    } else {
      var r := Split(tail, sep);
      assert p + tail == tail;
      assert r == [r[0]] + r[1..];
      assert p + r[0] == r[0];
    }
  }

  /** Round trip: splitting a joined list of separator-free parts gives the parts back. */
  lemma {:induction false} SplitJoin(parts: seq<string>, sep: char)
    requires |parts| > 0
    requires forall i :: 0 <= i < |parts| ==> sep !in parts[i]
    ensures Split(Join(parts, sep), sep) == parts
  {
    if |parts| == 1 {
      SplitFree(parts[0], "", sep);
      assert parts[0] + "" == parts[0];
    } else {
      var rest := Join(parts[1..], sep);
      SplitJoin(parts[1..], sep);
      assert parts[0] + [sep] + rest == parts[0] + ([sep] + rest);
      SplitFree(parts[0], [sep] + rest, sep);
      assert ([sep] + rest)[0] == sep;
      assert ([sep] + rest)[1..] == rest;
      assert Split([sep] + rest, sep) == [""] + parts[1..];
      assert parts[0] + "" == parts[0];
      assert parts == [parts[0]] + parts[1..];
    }
  }

  /** The two facts every comma-joined fragment relies on, each under its own hypothesis. */
  lemma JoinFacts(parts: seq<string>, sep: char)
    requires sep != '?'
    ensures |parts| > 0 && (forall i :: 0 <= i < |parts| ==> sep !in parts[i]) ==> Split(Join(parts, sep), sep) == parts
    ensures Placeholders(Join(parts, sep)) == SumCount(parts, '?')
    ensures NoPlaceholders(parts) ==> Placeholders(Join(parts, sep)) == 0
  {
    JoinCount(parts, sep, '?');
    if NoPlaceholders(parts) {
      SumCountZero(parts);
    }
    if |parts| > 0 && (forall i :: 0 <= i < |parts| ==> sep !in parts[i]) {
      SplitJoin(parts, sep);
    }
  }

  /** `k` copies of `x`. */
  function Copies(k: nat, x: string): (r: seq<string>)
    ensures |r| == k
    ensures forall i :: 0 <= i < k ==> r[i] == x
  {
    if k == 0 then [] else [x] + Copies(k - 1, x)
  }

  /** `k` comma-separated placeholders, `?,?,...,?`; empty for `k == 0`. */
  function PlaceholderList(k: nat): string
  {
    Join(Copies(k, "?"), ',')
  }

  lemma {:induction false} SumCountCopies(k: nat)
    ensures SumCount(Copies(k, "?"), '?') == k
  {
    if k > 0 {
      assert Copies(k, "?")[1..] == Copies(k - 1, "?");
      SumCountCopies(k - 1);
    }
  }

  /** The placeholder list holds exactly `k` placeholders and splits into `k` of them. */
  lemma PlaceholderListShape(k: nat)
    ensures Placeholders(PlaceholderList(k)) == k
    ensures PlaceholderList(k) == "" <==> k == 0
    ensures k > 0 ==> Split(PlaceholderList(k), ',') == Copies(k, "?")
  {
    JoinCount(Copies(k, "?"), ',', '?');
    SumCountCopies(k);
    if k > 0 {
      SplitJoin(Copies(k, "?"), ',');
    }
  }
}
